=== FILE: README.md ===
# realcugan-rs: a Dafny model of the Rust binding layer

This project models the Rust layer of `realcugan-rs`, a binding to the
RealCUGAN image upscaler. The layer sits between user configuration and the
native engine, which it reaches only through `extern "C"` calls. Two
revisions of the layer are modelled, each in its own module.

The newer revision is `src/rs/realcugan.rs` and `src/rs/builder.rs`:
- `Heuristics`: the prepadding table and the tile-size heuristic. The heuristic picks a size from an override, the CPU sentinel or a descending per-scale heap-budget threshold table.
- `Marshal`: channel normalisation, the native buffer descriptors and the byte count copied back. Both revisions have these helpers with the same logic. They differ only in error texts and in naming the scale field `scale` or `scale_factor`, so they are defined once.
- `Handle`: the native handle.
  - `Native` holds the process-wide `INSTANCES` counter (an 8-bit wrapping atomic) and a ghost log of every native call.
  - `Slot` is the shared `Arc<AtomicPtr>`, with its strong count and a ghost count of frees.
  - `Native` also carries `validate_gpu` and `load_model`, which only make native calls.
  - `RealCugan` covers construction (`new`), the per-call `process` protocol, `process_image`, `Clone` and `Drop`.
- `Config`: the value-in/value-out `Builder`. It covers the setters, the table of 18 bundled presets, the choice of model source (file pair, byte pair, preset), `get_bytes`, and `build` with its sync-gap resolution.

The older revision is `src/lib.rs`, modelled in `Legacy`:
- clamping setters;
- the directory convention for model paths, with its existence checks;
- a tile-size heuristic written as if-chains;
- a handle that owns its context alone, with no `Clone`.

`Revisions` relates the two revisions: where their parameter heuristics agree and where they part.

Native results are parameters of the model: the device count, the heap budget, the context pointer, whether the in-memory streams open, and the load and process status codes. File-system reads are oracles: `read` from a path to its bytes, or `present` for existence. The bytes a preset embeds are an oracle `embedded` from its path to its contents. Integer widths follow the source:
- `i32`, `u32` and `u8` are subset types;
- `as i32` and release-mode i32 multiplication wrap explicitly (`WrapI32`, `MulI32`);
- the legacy heap-budget comparisons are unsigned, as `c_uint` is there.

A `panic!` or a failing `unwrap` in the older revision is the result `Err(Panic)`.

## Model

| member | source | states |
|---|---|---|
| Common.WrapI32 | src/rs/realcugan.rs:103 | `as i32` keeps the value modulo 2^32 in the i32 range, and is the identity on values already in range |
| Common.AsU32 | src/rs/realcugan.rs:277-278 | `as u32` on an i32 keeps the low 32 bits read as unsigned |
| Common.MulI32 | src/rs/realcugan.rs:270 | i32 multiplication wraps, and equals the true product when that fits |
| Common.Decimal | src/lib.rs:330-343 | `format!("{}")` of an integer: '-' first exactly for negatives, digits everywhere else |
| Common.NatText | src/lib.rs:330-343 | the text of a natural number is a non-empty string of digits |
| Common.NatTextValue | src/lib.rs:330-343 | reading the digits back gives the number written |
| Common.NatTextInjective | src/lib.rs:330-343 | different naturals are written differently |
| Common.DecimalInjective | src/lib.rs:330-343 | different integers are written differently |
| Heuristics.CalculatePrepadding | src/rs/realcugan.rs:82-89 | 18 for 2x, 14 for 3x, 19 for 4x; `InvalidScale` for any other scale |
| Heuristics.FirstExceeded | src/rs/realcugan.rs:112-116 | `find` yields a size iff some threshold is strictly exceeded, and that size is paired with the first threshold exceeded |
| Heuristics.Thresholds | src/rs/realcugan.rs:105-110 | a table exists exactly for 2x, 3x and 4x, with three rows for 2x and four otherwise, each size in {100,200,300,400} |
| Heuristics.CalculateTileSize | src/rs/realcugan.rs:91-117 | a nonzero request is returned verbatim; with no request the result is in {32,100,200,300,400}, 400 on the CPU whatever the budget, 32 for an unknown scale |
| Heuristics.ThresholdTablesDescend | src/rs/realcugan.rs:105-109 | the three threshold tables descend strictly in both threshold and size |
| Heuristics.FirstExceededIsLargest | src/rs/realcugan.rs:112-116 | on a descending table the first threshold exceeded carries the largest size among those exceeded |
| Heuristics.FirstExceededMonotone | src/rs/realcugan.rs:112-116 | on a descending table more budget never selects a smaller size |
| Heuristics.TileSizeIsLargestAffordable | src/rs/realcugan.rs:103-116 | for 2x/3x/4x on a GPU the result is 32 or a table size whose threshold the budget exceeds, and no exceeded threshold pairs with a larger size |
| Heuristics.TileSizeMonotoneInBudget | src/rs/realcugan.rs:103-116 | within the i32 range the tile size is non-decreasing in the heap budget |
| Heuristics.HugeBudgetFallsToMinimum | src/rs/realcugan.rs:103 | a budget of 2^31 or more turns negative under the cast and yields 32 |
| Marshal.PrepareImage | src/rs/realcugan.rs:211-218 | 1 byte per pixel becomes 3 channels, 2 becomes 4, others pass unchanged; dimensions kept |
| Marshal.PrepareImageIdempotent | src/rs/realcugan.rs:211-218 | preparing twice equals preparing once; the channel count is never 1 or 2 afterwards |
| Marshal.CreateInputBuffer | src/rs/realcugan.rs:220-227 | fails iff width or height exceeds i32::MAX (width checked first); otherwise describes the image exactly |
| Marshal.CreateOutputBuffer | src/rs/realcugan.rs:229-236 | null data, the given channels, and dimensions equal to the input's times the scale when those fit |
| Marshal.OutputLargerThanInput | tests/test.rs:36-39 | at scale 2 or more the output buffer is strictly larger than the input in both directions |
| Marshal.BufferLength | src/rs/realcugan.rs:270-271 | the copy length is an error exactly when the wrapped i32 product is negative, and never exceeds i32::MAX |
| Marshal.BufferLengthExact | src/rs/realcugan.rs:270-271 | when neither multiplication overflows, the copy length is exactly h*w*c |
| Marshal.WrappedLengthExample | src/rs/realcugan.rs:270-271 | a 32768 x 32768 RGB output has a byte count that wraps negative |
| Marshal.ConvertImage | src/rs/realcugan.rs:201-209 | Ok exactly for 1 to 4 channels with enough bytes, and then the image has the given dimensions |
| Marshal.MarshalledDimensions | src/rs/realcugan.rs:284-289 | when the scaled width and height and their byte count at the normalised channel count fit in i32, marshalling yields exactly the input dimensions times the scale, with that channel count |
| Marshal.UpscaledBuffers | src/rs/realcugan.rs:229-281 | the output descriptor of a fitting input has byte count outH*outW*c and rebuilds into an image of that size |
| Handle.GpuCheckCalls | src/rs/realcugan.rs:119-131 | no native call exactly on the CPU; otherwise the device count first, and a teardown iff the device is missing and `INSTANCES` is 0 |
| Handle.DropCalls | src/rs/realcugan.rs:325-336 | only the last holder makes calls: a free iff the context is non-null, first, and a teardown iff the counter was 1 |
| Handle.Native.ValidateGpu | src/rs/realcugan.rs:119-131 | Ok iff CPU or index below the count; on error the GPU instance is torn down iff `INSTANCES` is 0 |
| Handle.Native.LoadModel | src/rs/realcugan.rs:140-153 | a stream failure makes no engine call; otherwise one load call, Ok iff its status is 0 |
| Handle.RealCugan.New | src/rs/realcugan.rs:155-190 | device check, then scale check, then budget query, init, load and set-parameters in order; a failure leaves `INSTANCES` alone; success adds exactly one instance |
| Handle.RealCugan.Configure | src/rs/realcugan.rs:168-181 | past both checks: the budget query only on a GPU with an automatic tile size, then init, load and set-parameters in that order; Ok iff the streams open and the load status is 0 |
| Handle.RealCugan.Register | src/rs/realcugan.rs:183-189 | a fresh slot holding the context with one holder, one more live group and `INSTANCES` one higher (mod 256) |
| Handle.RealCugan.Clone | src/rs/realcugan.rs:314-320 | the strong count goes up by one on the same slot, with no native call and nothing freed |
| Handle.RealCugan.Drop | src/rs/realcugan.rs:325-336 | only the last holder frees a non-null context and decrements `INSTANCES`; teardown happens iff the counter goes from 1 to 0 |
| Handle.Native.Release | src/rs/realcugan.rs:326-335 | the last holder's teardown: a non-null context freed exactly once, the group no longer live, `INSTANCES` one lower (mod 256), and the GPU instance destroyed iff the counter was 1 |
| Handle.TeardownOnLastGroup | src/rs/realcugan.rs:332-334 | while fewer than 256 groups are live, the final drop destroys the GPU instance exactly when no other group remains |
| Handle.RealCugan.Process | src/rs/realcugan.rs:238-282 | as written: null context refused before any call; nonzero status releases once and copies nothing; success copies h*w*c bytes then releases once; a wrapped length returns with no release |
| Handle.RealCugan.ProcessReleasing | src/rs/realcugan.rs:238-282 | a non-null context leads to exactly one release after the one native call, and bytes are copied iff the status is 0 and the length is valid |
| Handle.ProcessCalls | src/rs/realcugan.rs:238-282 | no call on a null context; otherwise the run first, and a release iff the status is nonzero or the length is representable |
| Handle.RealCugan.ProcessImage | src/rs/realcugan.rs:284-289 | width and height errors make no native call; otherwise the calls are those of `process` as written on the marshalled buffers; when the scaled dimensions and their byte count at the normalised channel count fit in i32, the result is the input times the scale factor |
| Handle.ProcessImageLeaksOnWrappedLength | src/rs/realcugan.rs:270-274 | a 16384 x 16384 RGB image at 2x with a successful run leaves only the run in the log: the result is never released |
| Handle.ShareAcrossWorkers | tests/test.rs:51-79 | cloning per worker and dropping every handle frees the context exactly once; the only native calls are those of the final drop, ending in the GPU teardown when it was the only live group |
| Handle.CloneForWorkers | tests/test.rs:51-79 | one distinct clone per worker on the same slot, the strong count up by the number of workers, nothing freed |
| Handle.DropClones | tests/test.rs:51-79 | dropping every clone leaves the original as the only holder, with no native call, nothing freed, and `INSTANCES` and the live groups unchanged |
| Config.SyncGapLevel | src/rs/builder.rs:125-133 | the level is in 0..3, 0 exactly for Disabled and 3 exactly for Strict |
| Config.SyncGapLevelBijective | src/rs/builder.rs:44-50 | the four sync-gap settings map one to one onto 0..3 |
| Config.PresetOf | src/rs/builder.rs:247-407 | every preset's scale is 2, 3 or 4 and its noise is in -1..3 |
| Config.PresetFiles | src/rs/builder.rs:247-407 | a preset's param and bin files end in `.param` and `.bin` and share one stem |
| Config.PresetMatchesName | src/rs/builder.rs:247-407 | every preset has the scale and noise its name announces, a scale the prepadding accepts and a noise level from -1 to 3 |
| Config.PresetSyncGapPermission | src/rs/builder.rs:247-407 | a preset allows the sync gap iff it is not one of the SE models |
| Config.Default | src/rs/builder.rs:77-97 | GPU 0, automatic tile size, strict sync gap, one thread, no TTA, 2x, conservative, empty bytes, sync gap allowed, no files |
| Config.Gpu | src/rs/builder.rs:105-108 | the u32 is cast to i32, so 0xFFFFFFFF is the CPU sentinel; nothing else changes |
| Config.Cpu | src/rs/builder.rs:110-113 | selects the CPU sentinel and changes nothing else |
| Config.Tta | src/rs/builder.rs:115-118 | switches TTA on and changes nothing else |
| Config.TileSize | src/rs/builder.rs:120-123 | the u32 is cast to i32 (values above i32::MAX lose 2^32), 0 stays automatic; nothing else changes |
| Config.WithSyncGap | src/rs/builder.rs:125-133 | stores the level of the setting and changes nothing else |
| Config.Threads | src/rs/builder.rs:135-138 | stores the thread count and changes nothing else |
| Config.Scale | src/rs/builder.rs:140-143 | stores the scale unchecked and changes nothing else |
| Config.Noise | src/rs/builder.rs:145-148 | stores the noise unchecked and changes nothing else |
| Config.ModelFiles | src/rs/builder.rs:150-153 | sets the file pair and leaves every parameter alone |
| Config.ModelBytes | src/rs/builder.rs:155-160 | sets both byte slices, clears the file pair, keeps scale, noise and permission |
| Config.WithModel | src/rs/builder.rs:162-205 | replaces every model parameter by the preset's (its embedded bytes, its name's scale and noise) and clears the file pair |
| Config.GetBytes | src/rs/builder.rs:207-217 | with files: param then bin are read and the first failed read is reported; without: the stored bytes |
| Config.LastModelSourceWins | src/rs/builder.rs:150-217 | the model source set last is the one `get_bytes` uses |
| Config.EffectiveSyncGap | src/rs/builder.rs:223-227 | the configured sync gap when the model allows it, else 0 |
| Config.PresetSyncGap | src/rs/builder.rs:223-227 | with a preset chosen SE models run with sync gap 0 whatever is configured, the others with the configured gap |
| Config.Build | src/rs/builder.rs:219-239 | a failed read makes no native call; Ok iff bytes, device, scale, streams and load all succeed, each failure with its own error; the native log is that of `new`: the device check alone on a bad device or scale, otherwise the check, the budget query on an automatic GPU tile size, the context, the load of the bytes read when the streams open, and the parameters with the resolved sync gap on success; a failure leaves `INSTANCES` and the live groups alone; success is the only holder of a fresh slot, one more live group and one more instance |
| Legacy.New | src/lib.rs:207-224 | GPU 0, conservative, 2x, SE, automatic tile size, no sync gap, no TTA, 0 threads, the current directory, in range |
| Legacy.Gpu | src/lib.rs:226-229 | the u32 is cast to i32 (values above i32::MAX lose 2^32), 0xFFFFFFFF being the CPU sentinel; nothing else changes |
| Legacy.Noise | src/lib.rs:231-243 | as written: the argument is stored unchanged whatever its range |
| Legacy.NoiseClampDefeated | src/lib.rs:241 | noise 7 and -5 get through the setter, and 7 names the file suffix `denoise7x` |
| Legacy.NoiseClamped | src/lib.rs:231-240 | as the branches intend: below -1 becomes -1, above 3 becomes 3, in range is kept |
| Legacy.ClampedNoiseNamesKnownFile | src/lib.rs:231-240 | with the clamp, the suffix is one of the five the model directories provide |
| Legacy.Scale | src/lib.rs:245-256 | clamps into 2..4 and changes nothing else |
| Legacy.WithModel | src/lib.rs:258-261 | stores the family and changes nothing else |
| Legacy.TileSize | src/lib.rs:263-271 | values above 32 become 32, others are stored as given |
| Legacy.SyncGap | src/lib.rs:273-281 | values above 3 become 3, others are stored as given |
| Legacy.TtaMode | src/lib.rs:283-286 | stores the flag and changes nothing else |
| Legacy.Threads | src/lib.rs:288-291 | stores the thread count and changes nothing else |
| Legacy.Directory | src/lib.rs:293-296 | stores the directory and changes nothing else |
| Legacy.Cpu | src/lib.rs:298-301 | selects the CPU sentinel and changes nothing else |
| Legacy.SettersKeepRanges | src/lib.rs:226-301 | every setter keeps scale in 2..4, tile size in 0..32 and sync gap in 0..3 |
| Legacy.GetPrepadding | src/lib.rs:303-310 | 18, 14, 19 for 2x, 3x, 4x; a panic for any other scale |
| Legacy.PrepaddingNeverPanics | src/lib.rs:245-256 | for a builder in range, which the setters guarantee, the prepadding panic is unreachable |
| Legacy.GetSyncGap | src/lib.rs:312-317 | 0 for SE, the configured gap otherwise |
| Legacy.FamilyDir | src/lib.rs:324-328 | SE is exactly `models-se`, Nose exactly `models-nose`, Pro exactly `models-pro` |
| Legacy.NoiseSuffix | src/lib.rs:330-343 | conservative for -1, no-denoise for 0, otherwise `denoise` then the decimal text of the noise then `x` |
| Legacy.NoiseSuffixInjective | src/lib.rs:330-343 | different noise levels give different suffixes |
| Legacy.ModelStem | src/lib.rs:330-343 | the stem lies under the directory given |
| Legacy.ModelStemInjective | src/lib.rs:324-343 | within one directory the stem determines family, scale and noise |
| Legacy.ModelPaths | src/lib.rs:330-343 | both paths lie under the directory, end in `.bin` and `.param`, and share the stem |
| Legacy.DistinctSettingsDistinctFiles | src/lib.rs:324-343 | within one directory, different settings look for different bin files and different param files |
| Legacy.StemPaths | src/lib.rs:330-343 | a stem under a directory gives two paths under it that differ only in the `.bin` and `.param` extensions |
| Legacy.CreateModelPaths | src/lib.rs:319-353 | directory, then bin, then param must exist; each missing one gives its own error; the paths are stored only on success |
| Legacy.GetTileSize | src/lib.rs:355-411 | as written: a nonzero size wins, the CPU gets 400, a GPU gets a size in {32,100,200,300,400}, 32 for an unknown scale |
| Legacy.Scale3NeverMidSizes | src/lib.rs:378-390 | at 3x the result is 400 above 330, 100 above 320, else 32: never 300 or 200 |
| Legacy.RequestedTileSizeAtMost32 | src/lib.rs:263-271 | a tile size requested through the setter reaches the heuristic clamped to 32 |
| Legacy.InitGpuCalls | src/lib.rs:413-423 | the CPU makes no call; a GPU always starts with instance creation and the device count |
| Legacy.InitCalls | src/lib.rs:437-453 | the budget is queried exactly on a GPU with an automatic tile size; the init call carries the clamped parameters; the load comes last |
| Legacy.RealCugan.Process | src/lib.rs:110-145 | no null or status check; success copies h*w*c bytes then releases once; a wrapped length returns with no release |
| Legacy.RealCugan.UpscaleImage | src/lib.rs:153-158 | width and height errors make no native call; otherwise the log is the run, then the copy-out and the free when the byte count does not wrap; when the scaled dimensions and their byte count at the normalised channel count fit in i32, the result is the input times the scale |
| Legacy.RealCugan.Drop | src/lib.rs:176-182 | frees the context unconditionally, exactly once, and never tears the GPU instance down |
| Legacy.InitGpu | src/lib.rs:413-423 | Ok iff CPU or index below the count; a missing device tears the instance down and panics |
| Legacy.InitModel | src/lib.rs:425-435 | a path holding NUL panics before any call; otherwise one load with the param and bin paths |
| Legacy.Init | src/lib.rs:437-453 | device check, budget query, init with the clamped parameters, then the load, in that order; a bad scale panics after the budget query with no context; a path holding NUL panics after the context is created, with no load |
| Legacy.Build | src/lib.rs:455-460 | a missing path fails with no native call; a missing device panics; a bad scale or a NUL in a located path panics after the calls `init` has made by then; otherwise the full init sequence on the located paths |
| Revisions.PrepaddingAgrees | src/lib.rs:303-310 | both revisions pad alike; the older panics exactly where the newer reports the bad scale |
| Revisions.TileSizeAgreesOffScale3 | src/lib.rs:355-411 | away from 3x the two heuristics agree on every budget within i32 |
| Revisions.TableLookup | src/rs/realcugan.rs:112-116 | `find` over a three- or four-row table equals the older revision's if-chain over the same rows |
| Revisions.TileSizeDivergesAtScale3 | src/lib.rs:379 | at 3x with budget 2000 the older revision picks 400 and the newer 300 |
| Revisions.TileSizeDivergesOnHugeBudget | src/rs/realcugan.rs:103 | a budget of 2^31 or more is largest to the older revision (400) and negative to the newer (32) |

## Left out

- Native engine: the `extern "C"` calls and `src/cpp/wrapper.cpp` are not part of this model. Their results are parameters and each call is one entry in a ghost log.
- The upscaling itself and pixel values: images keep only their dimensions and bytes per pixel. Decoding and encoding through the image library are left out, and so are `process_raw_image`, `process_image_from_path`, `upscale_raw_image` and `upscale_image_path`.
- File system and C streams: `std::fs::read`, path existence and `libc::fmemopen`/`create_file_pointer` are oracles, and closing the streams is not modelled.
- `std::env::current_dir` is a parameter. The `to_str().unwrap()` panic on a non-UTF-8 directory is not modelled.
- Concurrency: `Arc`, `AtomicPtr`, `AtomicU8` orderings and `Send` are modelled as sequential steps on a counter. Races between threads are not captured.
- `INSTANCES` wraps at 256 as the u8 atomic does. The teardown property of `Handle.RealCugan.Drop` is stated only while fewer than 256 handle groups are live.
- Handle.RealCugan.Process: the length is modelled with release-mode wrapping. A debug build panics on the overflow instead, and that is not modelled.
- `RealCugan::from_model`, `RealCugan::build`, `Builder::new` (the same as `default`), `Builder::unwrap`, and the legacy `Default` for `RealCugan`: these are wrappers that unwrap or delegate.
- `println!` warnings, `build.rs` and the re-exports in `src/rs/lib.rs`.
- Kept as written, not as findings:
  - `new` in the newer revision does not free the context when loading fails (`Handle.RealCugan.New`).
  - The older `build` leaves its context behind when a path holds NUL.
  - The older `Drop` frees a null pointer too and never tears the GPU instance down.
  - The older `process` does not check the status returned by the native call (src/lib.rs:113-131).
- Legacy.Init: its success clause is stated for builders in range (scale 2..4, tile size 0..32, sync gap 0..3), which every builder reachable through the setters is. An out-of-range scale is stated as `Err(Panic)` with the device check and budget query logged.
- Error texts: errors are kinds with their data, not formatted strings.
- Config.PresetFiles: the 18 preset paths are kept as data, a stem per preset plus the two extensions. No lemma relates them to the directory convention of the older revision, and their common `../../models/` prefix is not stated.

## Findings

| source | as written | input that shows it | evidently intended | confidence | as-written member | corrected member |
|---|---|---|---|---|---|---|
| src/lib.rs:379 | the first 3x threshold is `heap_budget > 330`, so the 300 and 200 branches are unreachable | 3x on a GPU with heap budget 2000 gets tile size 400 | 3300, as the newer revision has, so that 2000 gets 300 | not executed | Legacy.Scale3NeverMidSizes | Heuristics.TileSizeIsLargestAffordable |
| src/rs/realcugan.rs:270-274 | `?` on the buffer length returns before `realcugan_free_image`, so the native result leaks | a 16384 x 16384 RGB input at 2x: 32768*32768*3 wraps to -1073741824 in i32 | release the result on every path after the native call | not executed | Handle.ProcessImageLeaksOnWrappedLength | Handle.RealCugan.ProcessReleasing |
| src/lib.rs:241 | after the clamping branches, `self.noise = noise` stores the argument unchanged | `noise(7)` stores 7 and the model path becomes `.../up2x-denoise7x.bin` | keep the clamped value in -1..3 | not executed | Legacy.NoiseClampDefeated | Legacy.ClampedNoiseNamesKnownFile |

In the second finding, `Handle.RealCugan.Process` is the code as written, and `Handle.RealCugan.ProcessImage` calls it as `process_image` does. The older `process` (src/lib.rs:133-137) has the same early return; `Legacy.RealCugan.Process` models it as written. In the third finding, `Legacy.NoiseClamped` is the corrected setter. Nothing else in the model calls a noise setter: `Legacy.CreateModelPaths` takes the stored noise as it finds it.

=== FILE: common.dfy ===
/**
  Machine integer widths, the error kinds and the small helpers shared by
  both revisions of the binding.  Rust's fixed-width integers are modelled
  as subset types of `int`, and every `as` cast the source performs is
  written out as an explicit two's-complement reinterpretation.
 */
module Common {

  const I32_MIN: int := -0x8000_0000
  const I32_MAX: int := 0x7FFF_FFFF
  const U32_LIMIT: int := 0x1_0000_0000
  const U8_LIMIT: int := 0x100

  type i32 = x: int | I32_MIN <= x <= I32_MAX
  type u32 = x: int | 0 <= x < U32_LIMIT
  type u8 = x: int | 0 <= x < U8_LIMIT

  type Bytes = seq<bv8>

  /** An address on the native side; 0 is the null pointer. */
  type Ptr = nat
  const NULL: Ptr := 0

  /** `x as i32` (and i32 arithmetic in a release build): keep the low 32 bits, read them as signed. */
  function WrapI32(x: int): (r: i32)
    ensures (x - r) % U32_LIMIT == 0
    ensures I32_MIN <= x <= I32_MAX ==> r == x
  {
    var m := x % U32_LIMIT;
    if m <= I32_MAX then m else m - U32_LIMIT
  }

  /** `x as u32` on an i32: keep the low 32 bits, read them as unsigned. */
  function AsU32(x: i32): (r: u32)
    ensures x >= 0 ==> r == x
    ensures x < 0 ==> r == x + U32_LIMIT
  {
    if x >= 0 then x else x + U32_LIMIT
  }

  /** i32 multiplication as a release build performs it (wrapping on overflow). */
  function MulI32(a: i32, b: i32): (r: i32)
    ensures I32_MIN <= a * b <= I32_MAX ==> r == a * b
  {
    WrapI32(a * b)
  }

  /** The error kinds the binding reports.  The source reports them as formatted strings. */
  datatype Error =
    | InvalidScale(scale: int)
    | GpuNotFound(gpu: int, count: int)
    | FilePointers
    | LoadFailed(code: int)
    | InvalidPointer
    | ProcessFailed
    | InvalidBufferLength
    | InvalidWidth
    | InvalidHeight
    | InvalidChannels(channels: int)
    | ReadParamFile
    | ReadBinFile
    | MissingDirectory(dir: string)
    | MissingModelFile(path: string)
    | Panic

  datatype Result<+T> = Ok(value: T) | Err(error: Error)

  datatype Option<+T> = None | Some(value: T) {
    function GetOr(default: T): T {
      match this
      case Some(v) => v
      case None => default
    }
  }

  function Digit(d: nat): (c: char)
    requires d < 10
    ensures '0' <= c <= '9' && DigitValue(c) == d
  {
    ('0' as int + d) as char
  }

  /** The value of one decimal digit character. */
  function DigitValue(c: char): int
  {
    c as int - '0' as int
  }

  /** The value a string of decimal digits denotes, most significant first. */
  function DigitsValue(s: string): nat
    requires forall i :: 0 <= i < |s| ==> '0' <= s[i] <= '9'
  {
    if s == [] then 0 else DigitsValue(s[..|s| - 1]) * 10 + DigitValue(s[|s| - 1])
  }

  /** The decimal text of a natural number, as `format!("{}", n)` writes it. */
  function NatText(n: nat): (s: string)
    ensures |s| >= 1
    ensures forall i :: 0 <= i < |s| ==> '0' <= s[i] <= '9'
    decreases n
  {
    if n < 10 then [Digit(n)] else NatText(n / 10) + [Digit(n % 10)]
  }

  /** Reading the text back gives the number: the text is the number's decimal notation. */
  lemma {:induction false} NatTextValue(n: nat)
    ensures DigitsValue(NatText(n)) == n
    decreases n
  {
    var s := NatText(n);
    if n >= 10 {
      NatTextValue(n / 10);
      assert s[..|s| - 1] == NatText(n / 10);
      assert s[|s| - 1] == Digit(n % 10);
    } else {
      assert s[..|s| - 1] == [];
    }
  }

  /** The decimal text of an integer, with a leading '-' when it is negative. */
  function Decimal(n: int): (s: string)
    ensures |s| >= 1
    ensures s[0] == '-' <==> n < 0
    ensures forall i :: 0 < i < |s| ==> '0' <= s[i] <= '9'
    ensures n >= 0 ==> '0' <= s[0] <= '9'
  {
    if n < 0 then "-" + NatText(-n) else NatText(n)
  }

  /** Different naturals are written differently. */
  lemma NatTextInjective(a: nat, b: nat)
    requires NatText(a) == NatText(b)
    ensures a == b
  {
    NatTextValue(a);
    NatTextValue(b);
  }

  /** Different integers are written differently. */
  lemma DecimalInjective(a: int, b: int)
    requires Decimal(a) == Decimal(b)
    ensures a == b
  {
    var s := Decimal(a);
    if a < 0 {
      assert b < 0;
      var ta, tb := NatText(-a), NatText(-b);
      assert s == "-" + ta == "-" + tb;
      assert ta == s[1..] == tb;
      NatTextInjective(-a, -b);
    } else {
      NatTextInjective(a, b);
    }
  }
}

=== FILE: config.dfy ===
/**
  Configuration of the newer revision (src/rs/builder.rs): a record taken
  and returned by value by every setter, a table of bundled model presets,
  the choice between model files and in-memory bytes, and `build`, which
  resolves the effective sync gap and constructs the native handle.

  The file system is an oracle `read` from a path to its bytes (None when
  the read fails); the bytes a preset embeds at compile time are an oracle
  `embedded` from the preset's path to its contents.
 */
module Config {
  import opened Common
  import opened Heuristics
  import Handle

  /** How strictly the engine synchronises tiles; the engine receives 0 to 3. */
  datatype SyncGap = Disabled | Loose | Moderate | Strict

  function SyncGapLevel(g: SyncGap): (level: i32)
    ensures 0 <= level <= 3
    ensures level == 0 <==> g == Disabled
    ensures level == 3 <==> g == Strict
  {
    match g
    case Disabled => 0
    case Loose => 1
    case Moderate => 2
    case Strict => 3
  }

  /** The level mapping is a bijection between the four settings and 0..3. */
  lemma SyncGapLevelBijective(g1: SyncGap, g2: SyncGap, level: int)
    ensures SyncGapLevel(g1) == SyncGapLevel(g2) ==> g1 == g2
    ensures 0 <= level <= 3 ==> exists g :: SyncGapLevel(g) == level
  {
    if level == 0 {
      assert SyncGapLevel(Disabled) == level;
    } else if level == 1 {
      assert SyncGapLevel(Loose) == level;
    } else if level == 2 {
      assert SyncGapLevel(Moderate) == level;
    } else if level == 3 {
      assert SyncGapLevel(Strict) == level;
    }
  }

  /** The bundled presets. */
  datatype Model =
    | Se2xNoDenoise | Se2xConservative | Se2xLowDenoise | Se2xMediumDenoise | Se2xHighDenoise
    | Se3xNoDenoise | Se3xConservative | Se3xHighDenoise
    | Se4xNoDenoise | Se4xConservative | Se4xHighDenoise
    | Pro2xNoDenoise | Pro2XConservative | Pro2XHighDenoise
    | Pro3xNoDenoise | Pro3XConservative | Pro3XHighDenoise
    | Nose2xNoDenoise

  /** The model families, one directory of model files each. */
  datatype Family = SeFamily | ProFamily | NoseFamily

  /** The family a preset's name announces. */
  function NamedFamily(m: Model): Family
  {
    match m
    case Se2xNoDenoise | Se2xConservative | Se2xLowDenoise | Se2xMediumDenoise | Se2xHighDenoise
       | Se3xNoDenoise | Se3xConservative | Se3xHighDenoise
       | Se4xNoDenoise | Se4xConservative | Se4xHighDenoise => SeFamily
    case Pro2xNoDenoise | Pro2XConservative | Pro2XHighDenoise
       | Pro3xNoDenoise | Pro3XConservative | Pro3XHighDenoise => ProFamily
    case Nose2xNoDenoise => NoseFamily
  }

  /** The scale a preset's name announces (`2x`, `3x`, `4x`). */
  function NamedScale(m: Model): (scale: int)
    ensures scale in {2, 3, 4}
  {
    match m
    case Se2xNoDenoise | Se2xConservative | Se2xLowDenoise | Se2xMediumDenoise | Se2xHighDenoise
       | Pro2xNoDenoise | Pro2XConservative | Pro2XHighDenoise | Nose2xNoDenoise => 2
    case Se3xNoDenoise | Se3xConservative | Se3xHighDenoise
       | Pro3xNoDenoise | Pro3XConservative | Pro3XHighDenoise => 3
    case Se4xNoDenoise | Se4xConservative | Se4xHighDenoise => 4
  }

  /** The denoise level a preset's name announces: conservative is -1, no denoise 0, low/medium/high 1/2/3. */
  function NamedNoise(m: Model): (noise: int)
    ensures -1 <= noise <= 3
  {
    match m
    case Se2xConservative | Se3xConservative | Se4xConservative | Pro2XConservative | Pro3XConservative => -1
    case Se2xNoDenoise | Se3xNoDenoise | Se4xNoDenoise | Pro2xNoDenoise | Pro3xNoDenoise | Nose2xNoDenoise => 0
    case Se2xLowDenoise => 1
    case Se2xMediumDenoise => 2
    case Se2xHighDenoise | Se3xHighDenoise | Se4xHighDenoise | Pro2XHighDenoise | Pro3XHighDenoise => 3
  }

  /** A preset constant's settings: its scale, its noise level and whether it may use the sync gap. */
  datatype Preset = Preset(scale: i32, noise: i32, allowSyncGap: bool)

  /** The preset table's settings, as the source's constants give them. */
  function PresetOf(m: Model): (p: Preset)
    ensures p.scale in {2, 3, 4} && -1 <= p.noise <= 3
  {
    match m
    case Nose2xNoDenoise => Preset(2, 0, true)
    case Pro2xNoDenoise => Preset(2, 0, true)
    case Pro2XConservative => Preset(2, -1, true)
    case Pro2XHighDenoise => Preset(2, 3, true)
    case Pro3xNoDenoise => Preset(3, 0, true)
    case Pro3XConservative => Preset(3, -1, true)
    case Pro3XHighDenoise => Preset(3, 3, true)
    case Se2xNoDenoise => Preset(2, 0, false)
    case Se2xConservative => Preset(2, -1, false)
    case Se2xLowDenoise => Preset(2, 1, false)
    case Se2xMediumDenoise => Preset(2, 2, false)
    case Se2xHighDenoise => Preset(2, 3, false)
    case Se3xNoDenoise => Preset(3, 0, false)
    case Se3xConservative => Preset(3, -1, false)
    case Se3xHighDenoise => Preset(3, 3, false)
    case Se4xNoDenoise => Preset(4, 0, false)
    case Se4xConservative => Preset(4, -1, false)
    case Se4xHighDenoise => Preset(4, 3, false)
  }

  /**
    The path, relative to the source file, that a preset's two embedded files
    share once the extension is removed.
   */
  function PresetStem(m: Model): string
  {
    match m
    case Nose2xNoDenoise => "../../models/models-nose/up2x-no-denoise"
    case Pro2xNoDenoise => "../../models/models-pro/up2x-no-denoise"
    case Pro2XConservative => "../../models/models-pro/up2x-conservative"
    case Pro2XHighDenoise => "../../models/models-pro/up2x-denoise3x"
    case Pro3xNoDenoise => "../../models/models-pro/up3x-no-denoise"
    case Pro3XConservative => "../../models/models-pro/up3x-conservative"
    case Pro3XHighDenoise => "../../models/models-pro/up3x-denoise3x"
    case Se2xNoDenoise => "../../models/models-se/up2x-no-denoise"
    case Se2xConservative => "../../models/models-se/up2x-conservative"
    case Se2xLowDenoise => "../../models/models-se/up2x-denoise1x"
    case Se2xMediumDenoise => "../../models/models-se/up2x-denoise2x"
    case Se2xHighDenoise => "../../models/models-se/up2x-denoise3x"
    case Se3xNoDenoise => "../../models/models-se/up3x-no-denoise"
    case Se3xConservative => "../../models/models-se/up3x-conservative"
    case Se3xHighDenoise => "../../models/models-se/up3x-denoise3x"
    case Se4xNoDenoise => "../../models/models-se/up4x-no-denoise"
    case Se4xConservative => "../../models/models-se/up4x-conservative"
    case Se4xHighDenoise => "../../models/models-se/up4x-denoise3x"
  }

  /**
    The (param, bin) files a preset's bytes are embedded from at compile
    time: its stem with `.param` and with `.bin`.
   */
  function PresetFiles(m: Model): (paths: (string, string))
    ensures var (param, bin) := paths;
            && |param| >= 6 && param[|param| - 6..] == ".param"
            && |bin| >= 4 && bin[|bin| - 4..] == ".bin"
            && param[..|param| - 6] == bin[..|bin| - 4] == PresetStem(m)
  {
    var stem := PresetStem(m);
    assert (stem + ".param")[..|stem|] == stem == (stem + ".bin")[..|stem|];
    (stem + ".param", stem + ".bin")
  }

  /** Every preset carries the scale and noise its name announces, hence a supported scale and a noise level in -1..3. */
  lemma PresetMatchesName(m: Model)
    ensures PresetOf(m).scale == NamedScale(m) && PresetOf(m).noise == NamedNoise(m)
    ensures CalculatePrepadding(PresetOf(m).scale).Ok? && -1 <= PresetOf(m).noise <= 3
  {
  }

  /** The sync gap is allowed exactly for the PRO and NOSE presets, never for SE. */
  lemma PresetSyncGapPermission(m: Model)
    ensures PresetOf(m).allowSyncGap <==> NamedFamily(m) != SeFamily
  {
  }

  datatype GeneralParameters = GeneralParameters(gpu: i32, tileSize: i32, syncGap: i32, threads: i32, tta: bool)

  datatype ModelParameters = ModelParameters(param: Bytes, bin: Bytes, scale: i32, noise: i32, allowSyncGap: bool)

  /** The builder: an optional (param, bin) file pair, the general parameters and the model parameters. */
  datatype Builder = Builder(files: Option<(string, string)>, parameters: GeneralParameters, modelParameters: ModelParameters)

  /** `Builder::default` (and `Builder::new`): GPU 0, automatic tile size, strict sync gap, one thread, 2x, conservative, no model. */
  function Default(): (b: Builder)
    ensures b.files == None
    ensures b.parameters == GeneralParameters(0, 0, SyncGapLevel(Strict), 1, false)
    ensures b.modelParameters == ModelParameters([], [], 2, -1, true)
  {
    Builder(None, GeneralParameters(0, 0, 3, 1, false), ModelParameters([], [], 2, -1, true))
  }

  /** `gpu`: the u32 index is cast to i32, so 0xFFFF_FFFF becomes the CPU sentinel and larger halves go negative. */
  function Gpu(b: Builder, gpu: u32): (r: Builder)
    ensures gpu <= I32_MAX ==> r.parameters.gpu == gpu
    ensures gpu > I32_MAX ==> r.parameters.gpu == gpu - U32_LIMIT
    ensures r.parameters.gpu == CPU <==> gpu == U32_LIMIT - 1
    ensures r == b.(parameters := b.parameters.(gpu := r.parameters.gpu))
  {
    b.(parameters := b.parameters.(gpu := WrapI32(gpu)))
  }

  function Cpu(b: Builder): (r: Builder)
    ensures r.parameters.gpu == CPU
    ensures r == b.(parameters := b.parameters.(gpu := r.parameters.gpu))
  {
    b.(parameters := b.parameters.(gpu := -1))
  }

  /** `tta`: switches test-time augmentation on; there is no setter that switches it off. */
  function Tta(b: Builder): (r: Builder)
    ensures r.parameters.tta
    ensures r == b.(parameters := b.parameters.(tta := r.parameters.tta))
  {
    b.(parameters := b.parameters.(tta := true))
  }

  /** `tile_size`: cast to i32 like `gpu`; 0 keeps the automatic choice. */
  function TileSize(b: Builder, tileSize: u32): (r: Builder)
    ensures tileSize <= I32_MAX ==> r.parameters.tileSize == tileSize
    ensures tileSize > I32_MAX ==> r.parameters.tileSize == tileSize - U32_LIMIT
    ensures r.parameters.tileSize == 0 <==> tileSize == 0
    ensures r == b.(parameters := b.parameters.(tileSize := r.parameters.tileSize))
  {
    b.(parameters := b.parameters.(tileSize := WrapI32(tileSize)))
  }

  function WithSyncGap(b: Builder, syncGap: SyncGap): (r: Builder)
    ensures 0 <= r.parameters.syncGap <= 3
    ensures r.parameters.syncGap == SyncGapLevel(syncGap)
    ensures r == b.(parameters := b.parameters.(syncGap := r.parameters.syncGap))
  {
    b.(parameters := b.parameters.(syncGap := SyncGapLevel(syncGap)))
  }

  function Threads(b: Builder, threads: i32): (r: Builder)
    ensures r.parameters.threads == threads
    ensures r == b.(parameters := b.parameters.(threads := r.parameters.threads))
  {
    b.(parameters := b.parameters.(threads := threads))
  }

  /** `scale`: stored unchecked; an unsupported scale is refused only when the handle is built. */
  function Scale(b: Builder, scale: i32): (r: Builder)
    ensures r.modelParameters.scale == scale
    ensures r == b.(modelParameters := b.modelParameters.(scale := r.modelParameters.scale))
  {
    b.(modelParameters := b.modelParameters.(scale := scale))
  }

  /** `noise`: stored unchecked. */
  function Noise(b: Builder, noise: i32): (r: Builder)
    ensures r.modelParameters.noise == noise
    ensures r == b.(modelParameters := b.modelParameters.(noise := r.modelParameters.noise))
  {
    b.(modelParameters := b.modelParameters.(noise := noise))
  }

  /** `model_files`: read the model from these files; the stored model parameters stay as they are. */
  function ModelFiles(b: Builder, paramFile: string, binFile: string): (r: Builder)
    ensures r.files == Some((paramFile, binFile))
    ensures r.parameters == b.parameters && r.modelParameters == b.modelParameters
  {
    b.(files := Some((paramFile, binFile)))
  }

  /** `model_bytes`: use these bytes and forget any file pair; scale, noise and sync-gap permission stay. */
  function ModelBytes(b: Builder, param: Bytes, bin: Bytes): (r: Builder)
    ensures r.files == None && r.parameters == b.parameters
    ensures r.modelParameters == b.modelParameters.(param := param, bin := bin)
  {
    b.(files := None, modelParameters := b.modelParameters.(param := param, bin := bin))
  }

  /** `model`: replace every model parameter by the preset's and forget any file pair. */
  function WithModel(b: Builder, m: Model, embedded: string -> Bytes): (r: Builder)
    ensures r.files == None && r.parameters == b.parameters
    ensures r.modelParameters.scale == NamedScale(m) && r.modelParameters.noise == NamedNoise(m)
    ensures r.modelParameters.allowSyncGap <==> NamedFamily(m) != SeFamily
    ensures r.modelParameters.param == embedded(PresetFiles(m).0)
    ensures r.modelParameters.bin == embedded(PresetFiles(m).1)
  {
    var p := PresetOf(m);
    var (paramPath, binPath) := PresetFiles(m);
    PresetMatchesName(m);
    PresetSyncGapPermission(m);
    b.(files := None, modelParameters := ModelParameters(embedded(paramPath), embedded(binPath), p.scale, p.noise, p.allowSyncGap))
  }

  /**
    `get_bytes`: with a file pair, read the param file and then the bin file,
    failing on the first read that fails; otherwise the stored bytes.
   */
  function GetBytes(b: Builder, read: string -> Option<Bytes>): (r: Result<(Bytes, Bytes)>)
    ensures b.files.None? ==> r == Ok((b.modelParameters.param, b.modelParameters.bin))
    ensures b.files.Some? ==>
              && (r.Ok? <==> read(b.files.value.0).Some? && read(b.files.value.1).Some?)
              && (read(b.files.value.0).None? ==> r == Err(ReadParamFile))
              && (read(b.files.value.0).Some? && read(b.files.value.1).None? ==> r == Err(ReadBinFile))
              && (r.Ok? ==> r.value == (read(b.files.value.0).value, read(b.files.value.1).value))
  {
    match b.files
    case None => Ok((b.modelParameters.param, b.modelParameters.bin))
    case Some((paramFile, binFile)) =>
      match read(paramFile)
      case None => Err(ReadParamFile)
      case Some(param) =>
        match read(binFile)
        case None => Err(ReadBinFile)
        case Some(bin) => Ok((param, bin))
  }

  /** The model source chosen last is the one `get_bytes` uses: bytes and presets hide an earlier file pair, a file pair hides earlier bytes. */
  lemma LastModelSourceWins(b: Builder, read: string -> Option<Bytes>, embedded: string -> Bytes,
                            param: Bytes, bin: Bytes, paramFile: string, binFile: string, m: Model)
    ensures GetBytes(ModelBytes(ModelFiles(b, paramFile, binFile), param, bin), read) == Ok((param, bin))
    ensures GetBytes(WithModel(ModelFiles(b, paramFile, binFile), m, embedded), read)
            == Ok((embedded(PresetFiles(m).0), embedded(PresetFiles(m).1)))
    ensures GetBytes(ModelFiles(ModelBytes(b, param, bin), paramFile, binFile), read)
            == GetBytes(ModelFiles(b, paramFile, binFile), read)
  {
  }

  /** The sync gap `build` hands over: the configured one when the model allows it, else 0. */
  function EffectiveSyncGap(b: Builder): (g: i32)
    ensures b.modelParameters.allowSyncGap ==> g == b.parameters.syncGap
    ensures !b.modelParameters.allowSyncGap ==> g == 0
  {
    if b.modelParameters.allowSyncGap then b.parameters.syncGap else 0
  }

  /**
    With a preset chosen, SE models always run with sync gap 0 whatever was
    configured, PRO and NOSE models with the configured one; with the
    default builder it is 3 (strict).
   */
  lemma PresetSyncGap(b: Builder, m: Model, embedded: string -> Bytes, g: SyncGap)
    ensures EffectiveSyncGap(WithModel(b, m, embedded)) == (if NamedFamily(m) == SeFamily then 0 else b.parameters.syncGap)
    ensures EffectiveSyncGap(WithSyncGap(WithModel(b, m, embedded), g))
            == (if NamedFamily(m) == SeFamily then 0 else SyncGapLevel(g))
    ensures EffectiveSyncGap(Default()) == SyncGapLevel(Strict)
  {
  }

  /**
    `build`: obtain the model bytes, resolve the sync gap and construct the
    handle; the builder itself is a value and stays as it was.  A failed read
    ends the build before any native call.
   */
  method Build(b: Builder, native: Handle.Native, read: string -> Option<Bytes>,
               gpuCount: i32, heapBudget: u32, ctx: Ptr, streamsOpen: bool, loadStatus: i32)
    returns (r: Result<Handle.RealCugan>)
    requires native.Valid()
    modifies native`calls, native`instances, native`live
    ensures native.Valid()
    ensures GetBytes(b, read).Err? ==>
              && r == Err(GetBytes(b, read).error)
              && native.calls == old(native.calls) && native.instances == old(native.instances)
              && native.live == old(native.live)
    ensures r.Ok? <==>
              && GetBytes(b, read).Ok?
              && (b.parameters.gpu == CPU || b.parameters.gpu < gpuCount)
              && b.modelParameters.scale in {2, 3, 4}
              && streamsOpen && loadStatus == 0
    // an unchecked scale is refused once the device check has passed
    ensures GetBytes(b, read).Ok? && (b.parameters.gpu == CPU || b.parameters.gpu < gpuCount)
            && b.modelParameters.scale !in {2, 3, 4} ==>
              r == Err(InvalidScale(b.modelParameters.scale))
    // the model is loaded from the bytes obtained, then the parameters are set with the resolved sync gap
    ensures r.Ok? ==>
              && |native.calls| >= |old(native.calls)| + 2
              && native.calls[|native.calls| - 2] == Handle.LoadFiles(ctx, GetBytes(b, read).value.0, GetBytes(b, read).value.1)
              && native.calls[|native.calls| - 1] ==
                 Handle.SetParameters(ctx, b.modelParameters.scale, b.modelParameters.noise,
                                      CalculatePrepadding(b.modelParameters.scale).value, EffectiveSyncGap(b),
                                      CalculateTileSize(b.parameters.tileSize, b.modelParameters.scale,
                                                        b.parameters.gpu, heapBudget))
              && fresh(r.value) && r.value.Valid()
              && r.value.scaleFactor == b.modelParameters.scale
              && r.value.useCpu == (b.parameters.gpu == CPU)
    // the device, stream and load failures of `new`, reported as they are
    ensures GetBytes(b, read).Ok? && b.parameters.gpu != CPU && b.parameters.gpu >= gpuCount ==>
              r == Err(GpuNotFound(b.parameters.gpu, gpuCount))
    ensures GetBytes(b, read).Ok? && (b.parameters.gpu == CPU || b.parameters.gpu < gpuCount)
            && b.modelParameters.scale in {2, 3, 4} && !streamsOpen ==>
              r == Err(FilePointers)
    ensures GetBytes(b, read).Ok? && (b.parameters.gpu == CPU || b.parameters.gpu < gpuCount)
            && b.modelParameters.scale in {2, 3, 4} && streamsOpen && loadStatus != 0 ==>
              r == Err(LoadFailed(loadStatus))
    // the native log of `new`: the device check alone when the device or the scale is refused
    ensures GetBytes(b, read).Ok? && b.parameters.gpu != CPU && b.parameters.gpu >= gpuCount ==>
              native.calls == old(native.calls) + Handle.GpuCheckCalls(b.parameters.gpu, gpuCount, old(native.instances))
    ensures GetBytes(b, read).Ok? && (b.parameters.gpu == CPU || b.parameters.gpu < gpuCount)
            && b.modelParameters.scale !in {2, 3, 4} ==>
              native.calls == old(native.calls) + Handle.GpuCheckCalls(b.parameters.gpu, gpuCount, old(native.instances))
    // past both checks: the budget query on an automatic GPU tile size, the context, the load, the parameters
    ensures GetBytes(b, read).Ok? && (b.parameters.gpu == CPU || b.parameters.gpu < gpuCount)
            && b.modelParameters.scale in {2, 3, 4} ==>
              var (gpu, scale) := (b.parameters.gpu, b.modelParameters.scale);
              native.calls == old(native.calls)
                + Handle.GpuCheckCalls(gpu, gpuCount, old(native.instances))
                + (if b.parameters.tileSize == 0 && gpu != CPU then [Handle.GetHeapBudget(gpu)] else [])
                + [Handle.Init(gpu, b.parameters.tta, b.parameters.threads)]
                + (if streamsOpen then [Handle.LoadFiles(ctx, GetBytes(b, read).value.0, GetBytes(b, read).value.1)] else [])
                + (if r.Ok? then [Handle.SetParameters(ctx, scale, b.modelParameters.noise,
                                                       CalculatePrepadding(scale).value, EffectiveSyncGap(b),
                                                       CalculateTileSize(b.parameters.tileSize, scale, gpu, heapBudget))]
                   else [])
    // any failure leaves the instance count and the live handles alone
    ensures r.Err? ==> native.instances == old(native.instances) && native.live == old(native.live)
    // a built handle is the only holder of a fresh slot, one more live group and one more instance
    ensures r.Ok? ==>
              && fresh(r.value.pointer) && r.value.pointer.holders == {r.value} && r.value.pointer.ptr == ctx
              && native.live == old(native.live) + {r.value.pointer}
              && native.instances == (old(native.instances) + 1) % U8_LIMIT
  {
    var bytes := GetBytes(b, read);
    if bytes.Err? {
      return Err(bytes.error);
    }
    var (param, bin) := bytes.value;
    var syncGap := EffectiveSyncGap(b);
    r := Handle.RealCugan.New(native, b.parameters.gpu, b.parameters.threads, b.parameters.tta, syncGap,
                              b.parameters.tileSize, b.modelParameters.scale, b.modelParameters.noise,
                              param, bin, gpuCount, heapBudget, ctx, streamsOpen, loadStatus);
  }
}

=== FILE: handle.dfy ===
/**
  The native handle of the newer revision (src/rs/realcugan.rs): construction
  in a fixed order of native calls, the per-call processing protocol, and the
  sharing of one native context by reference counting.

  The engine is reached only through C calls.  Their results (device count,
  heap budget, the context pointer, stream creation, status codes) are
  parameters, and every call made is appended to a ghost log on the
  process-wide `Native` object, so contracts can say which calls were made
  and in what order.  Concurrency is left out: clone and drop are modelled as
  sequential steps on the shared counter.
 */
module Handle {
  import opened Common
  import opened Heuristics
  import opened Marshal

  /** A call across the native boundary, or a copy out of engine memory. */
  datatype Call =
    | GetGpuCount
    | DestroyGpuInstance
    | GetHeapBudget(gpu: int)
    | Init(gpu: int, tta: bool, threads: int)
    | LoadFiles(ctx: Ptr, param: Bytes, bin: Bytes)
    | SetParameters(ctx: Ptr, scale: int, noise: int, prepadding: int, syncGap: int, tileSize: int)
    | Run(ctx: Ptr, cpu: bool, input: NativeImage, output: NativeImage)
    | CopyOut(length: nat)
    | FreeImage
    | Free(ctx: Ptr)

  /**
    The calls `process` makes as written: none on a null context, else the
    run, then the release on a nonzero status, the copy and the release on a
    representable length, and nothing more when the length wraps negative.
   */
  function ProcessCalls(ptr: Ptr, useCpu: bool, inBuffer: NativeImage, outBuffer: NativeImage, status: i32): (calls: seq<Call>)
    ensures ptr == NULL <==> calls == []
    ensures ptr != NULL ==> calls[0] == Run(ptr, useCpu, inBuffer, outBuffer)
    ensures FreeImage in calls <==> ptr != NULL && (status != 0 || BufferLength(outBuffer).Ok?)
  {
    if ptr == NULL then []
    else
      [Run(ptr, useCpu, inBuffer, outBuffer)]
      + (if status != 0 then [FreeImage]
         else if BufferLength(outBuffer).Err? then []
         else [CopyOut(BufferLength(outBuffer).value), FreeImage])
  }

  /** A 16384 x 16384 RGB image at 2x on a live context: the run succeeds, the length wraps, and the result is never released. */
  lemma ProcessImageLeaksOnWrappedLength(ptr: Ptr, useCpu: bool, storage: Ptr)
    requires ptr != NULL
    ensures var input := NativeImage(storage, 16384, 16384, 3);
            var output := CreateOutputBuffer(input, 2, 3);
            ProcessCalls(ptr, useCpu, input, output, 0) == [Run(ptr, useCpu, input, output)]
  {
    var output := CreateOutputBuffer(NativeImage(storage, 16384, 16384, 3), 2, 3);
    assert output == NativeImage(NULL, 32768, 32768, 3);
    WrappedLengthExample();
  }

  /** The calls `validate_gpu` makes: none for the CPU, else the device count and, on failure with no live handle, a teardown. */
  function GpuCheckCalls(gpu: i32, gpuCount: i32, instances: u8): (calls: seq<Call>)
    ensures gpu == CPU <==> calls == []
    ensures gpu != CPU ==> calls[0] == GetGpuCount
    ensures DestroyGpuInstance in calls <==> gpu != CPU && gpu >= gpuCount && instances == 0
  {
    if gpu == CPU then []
    else if gpu >= gpuCount && instances == 0 then [GetGpuCount, DestroyGpuInstance]
    else [GetGpuCount]
  }

  /** The calls a single drop makes: nothing unless it is the last holder. */
  function DropCalls(last: bool, ptr: Ptr, instances: u8): (calls: seq<Call>)
    ensures !last ==> calls == []
    ensures Free(ptr) in calls <==> last && ptr != NULL
    ensures DestroyGpuInstance in calls <==> last && instances == 1
    ensures last && ptr != NULL ==> calls[0] == Free(ptr)
  {
    if !last then []
    else (if ptr != NULL then [Free(ptr)] else []) + (if instances == 1 then [DestroyGpuInstance] else [])
  }

  /**
    With fewer than 256 groups live the counter does not wrap, so a final drop
    tears the GPU instance down exactly when its group was the last one.
   */
  lemma TeardownOnLastGroup(live: set<Slot>, instances: u8, slot: Slot)
    requires instances == |live| % U8_LIMIT && |live| < U8_LIMIT && slot in live
    ensures forall ptr: Ptr :: DestroyGpuInstance in DropCalls(true, ptr, instances) <==> live - {slot} == {}
  {
    assert |live - {slot}| == |live| - 1;
    if live - {slot} != {} {
      var other :| other in live - {slot};
      assert {slot, other} <= live;
      assert |{slot, other}| == 2;
    }
  }

  /**
    Process-wide state: the static `INSTANCES` counter (an 8-bit atomic that
    wraps), the set of handle groups constructed and not yet finally dropped,
    and the log of native calls.
   */
  class Native {
    var instances: u8
    ghost var live: set<Slot>
    ghost var calls: seq<Call>

    ghost predicate Valid()
      reads this
    {
      instances == |live| % U8_LIMIT
    }

    constructor ()
      ensures Valid() && instances == 0 && live == {} && calls == []
    {
      instances := 0;
      live := {};
      calls := [];
    }

    /**
      The final drop of a handle group: free its context unless it is null,
      decrement `INSTANCES`, and tear the GPU instance down when that
      decrement starts from 1.
     */
    method Release(slot: Slot)
      requires Valid() && slot in live && slot.frees == 0
      modifies this, slot`frees
      ensures Valid()
      ensures calls == old(calls) + DropCalls(true, slot.ptr, old(instances))
      ensures slot.frees == (if slot.ptr != NULL then 1 else 0)
      ensures live == old(live) - {slot}
      ensures instances == (old(instances) - 1) % U8_LIMIT
    {
      if slot.ptr != NULL {
        calls := calls + [Free(slot.ptr)];
        slot.frees := slot.frees + 1;
      }
      var previous := instances;
      instances := (instances - 1) % U8_LIMIT;
      live := live - {slot};
      if previous == 1 {
        calls := calls + [DestroyGpuInstance];
      }
    }

    /**
      `validate_gpu`: the CPU sentinel is accepted without a native call; any
      other index is checked against the reported device count, and a failure
      tears the shared GPU instance down when no handle is live.
     */
    method ValidateGpu(gpu: i32, gpuCount: i32) returns (r: Result<()>)
      requires Valid()
      modifies this`calls
      ensures Valid()
      ensures r.Ok? <==> gpu == CPU || gpu < gpuCount
      ensures r.Err? ==> r.error == GpuNotFound(gpu, gpuCount)
      ensures calls == old(calls) + GpuCheckCalls(gpu, gpuCount, instances)
    {
      if gpu == CPU {
        return Ok(());
      }
      calls := calls + [GetGpuCount];
      if gpu >= gpuCount {
        if instances == 0 {
          calls := calls + [DestroyGpuInstance];
        }
        return Err(GpuNotFound(gpu, gpuCount));
      }
      r := Ok(());
    }

    /** `load_model`: present both byte slices as in-memory streams, then hand them to the engine. */
    method LoadModel(ctx: Ptr, param: Bytes, bin: Bytes, streamsOpen: bool, loadStatus: i32) returns (r: Result<()>)
      requires Valid()
      modifies this`calls
      ensures Valid()
      ensures r.Ok? <==> streamsOpen && loadStatus == 0
      ensures !streamsOpen ==> r == Err(FilePointers) && calls == old(calls)
      ensures streamsOpen ==> calls == old(calls) + [LoadFiles(ctx, param, bin)]
      ensures streamsOpen && loadStatus != 0 ==> r == Err(LoadFailed(loadStatus))
    {
      if !streamsOpen {
        return Err(FilePointers);
      }
      calls := calls + [LoadFiles(ctx, param, bin)];
      if loadStatus != 0 {
        return Err(LoadFailed(loadStatus));
      }
      r := Ok(());
    }
  }

  /**
    The shared slot `Arc<AtomicPtr<c_void>>`: the context pointer (never
    stored to after construction), the strong count, the ghost set of handles
    holding it and the ghost count of `realcugan_free` calls on its pointer.
   */
  class Slot {
    const ptr: Ptr
    var strong: nat
    ghost var holders: set<RealCugan>
    ghost var frees: nat

    /** The strong count is the number of holders, and the pointer is freed once exactly when none is left. */
    ghost predicate Valid()
      reads this
    {
      && strong == |holders|
      && frees == (if strong == 0 && ptr != NULL then 1 else 0)
    }

    constructor (ptr: Ptr)
      ensures this.ptr == ptr && strong == 1 && holders == {} && frees == 0
    {
      this.ptr := ptr;
      strong := 1;
      holders := {};
      frees := 0;
    }
  }

  class RealCugan {
    const pointer: Slot
    const scaleFactor: i32
    const useCpu: bool

    ghost predicate Valid()
      reads this, pointer
    {
      pointer.Valid() && this in pointer.holders && pointer.strong >= 1
    }

    constructor (pointer: Slot, scaleFactor: i32, useCpu: bool)
      ensures this.pointer == pointer && this.scaleFactor == scaleFactor && this.useCpu == useCpu
    {
      this.pointer := pointer;
      this.scaleFactor := scaleFactor;
      this.useCpu := useCpu;
    }

    /**
      `RealCugan::new`: validate the device, compute the prepadding, compute the
      tile size, create the context, load the model from in-memory streams,
      set the parameters, count the instance.  The first failing step ends the
      construction; a context created before a load failure is not freed.
     */
    static method New(native: Native, gpu: i32, threads: i32, tta: bool, syncGap: i32, tileSize: i32,
                      scale: i32, noise: i32, param: Bytes, bin: Bytes,
                      gpuCount: i32, heapBudget: u32, ctx: Ptr, streamsOpen: bool, loadStatus: i32)
      returns (r: Result<RealCugan>)
      requires native.Valid()
      modifies native`calls, native`instances, native`live
      ensures native.Valid()
      ensures r.Ok? <==> (gpu == CPU || gpu < gpuCount) && scale in {2, 3, 4} && streamsOpen && loadStatus == 0
      // the device check comes first and runs alone when it fails
      ensures gpu != CPU && gpu >= gpuCount ==>
                r == Err(GpuNotFound(gpu, gpuCount))
                && native.calls == old(native.calls) + GpuCheckCalls(gpu, gpuCount, old(native.instances))
      // an invalid scale fails before the context is created
      ensures (gpu == CPU || gpu < gpuCount) && scale !in {2, 3, 4} ==>
                r == Err(InvalidScale(scale))
                && native.calls == old(native.calls) + GpuCheckCalls(gpu, gpuCount, old(native.instances))
      // past both checks, the heap budget is asked for only on a GPU with no requested size, then the context is created
      ensures (gpu == CPU || gpu < gpuCount) && scale in {2, 3, 4} ==>
                native.calls == old(native.calls) +
                   GpuCheckCalls(gpu, gpuCount, old(native.instances))
                   + (if tileSize == 0 && gpu != CPU then [GetHeapBudget(gpu)] else [])
                   + [Init(gpu, tta, threads)]
                   + (if streamsOpen then [LoadFiles(ctx, param, bin)] else [])
                   + (if r.Ok? then [SetParameters(ctx, scale, noise, CalculatePrepadding(scale).value, syncGap,
                                                   CalculateTileSize(tileSize, scale, gpu, heapBudget))]
                      else [])
      ensures (gpu == CPU || gpu < gpuCount) && scale in {2, 3, 4} && !streamsOpen ==> r == Err(FilePointers)
      ensures (gpu == CPU || gpu < gpuCount) && scale in {2, 3, 4} && streamsOpen && loadStatus != 0 ==>
                r == Err(LoadFailed(loadStatus))
      // a failed construction leaves the instance count and the live handles alone
      ensures r.Err? ==> native.instances == old(native.instances) && native.live == old(native.live)
      // a successful one counts exactly one more instance, CPU and GPU alike
      ensures r.Ok? ==>
                && fresh(r.value) && fresh(r.value.pointer)
                && r.value.Valid() && r.value.pointer.holders == {r.value}
                && r.value.pointer.ptr == ctx && r.value.scaleFactor == scale && r.value.useCpu == (gpu == CPU)
                && native.live == old(native.live) + {r.value.pointer}
                && native.instances == (old(native.instances) + 1) % U8_LIMIT
    {
      var checked := native.ValidateGpu(gpu, gpuCount);
      if checked.Err? {
        return Err(checked.error);
      }
      var prepadding := CalculatePrepadding(scale);
      if prepadding.Err? {
        return Err(prepadding.error);
      }
      var configured := Configure(native, gpu, threads, tta, syncGap, tileSize, scale, noise, prepadding.value,
                                  param, bin, heapBudget, ctx, streamsOpen, loadStatus);
      if configured.Err? {
        return Err(configured.error);
      }
      var handle := Register(native, ctx, scale, gpu == CPU);
      r := Ok(handle);
    }

    /**
      The middle of `new`, past both checks: ask for the heap budget when the
      tile size is automatic on a GPU, create the context, load the model and
      set its parameters.
     */
    static method Configure(native: Native, gpu: i32, threads: i32, tta: bool, syncGap: i32, tileSize: i32,
                            scale: i32, noise: i32, prepadding: i32, param: Bytes, bin: Bytes,
                            heapBudget: u32, ctx: Ptr, streamsOpen: bool, loadStatus: i32)
      returns (r: Result<()>)
      requires native.Valid() && scale in {2, 3, 4}
      modifies native`calls
      ensures native.Valid()
      ensures r.Ok? <==> streamsOpen && loadStatus == 0
      ensures native.calls == old(native.calls)
                + (if tileSize == 0 && gpu != CPU then [GetHeapBudget(gpu)] else [])
                + [Init(gpu, tta, threads)]
                + (if streamsOpen then [LoadFiles(ctx, param, bin)] else [])
                + (if r.Ok? then [SetParameters(ctx, scale, noise, prepadding, syncGap,
                                                CalculateTileSize(tileSize, scale, gpu, heapBudget))]
                   else [])
      ensures !streamsOpen ==> r == Err(FilePointers)
      ensures streamsOpen && loadStatus != 0 ==> r == Err(LoadFailed(loadStatus))
    {
      ghost var budgetCalls := if tileSize == 0 && gpu != CPU then [GetHeapBudget(gpu)] else [];
      if tileSize == 0 && gpu != CPU {
        native.calls := native.calls + [GetHeapBudget(gpu)];
      }
      var tile := CalculateTileSize(tileSize, scale, gpu, heapBudget);
      native.calls := native.calls + [Init(gpu, tta, threads)];
      ghost var created := native.calls;
      assert created == old(native.calls) + budgetCalls + [Init(gpu, tta, threads)];
      var loaded := native.LoadModel(ctx, param, bin, streamsOpen, loadStatus);
      if loaded.Err? {
        assert native.calls == created + (if streamsOpen then [LoadFiles(ctx, param, bin)] else []);
        return Err(loaded.error);
      }
      native.calls := native.calls + [SetParameters(ctx, scale, noise, prepadding, syncGap, tile)];
      assert native.calls == created + [LoadFiles(ctx, param, bin)] + [SetParameters(ctx, scale, noise, prepadding, syncGap, tile)];
      r := Ok(());
    }

    /** The tail of `new` once the engine is configured: wrap the context in a fresh slot and count the instance. */
    static method Register(native: Native, ctx: Ptr, scale: i32, useCpu: bool) returns (handle: RealCugan)
      requires native.Valid()
      modifies native`instances, native`live
      ensures native.Valid()
      ensures fresh(handle) && fresh(handle.pointer)
      ensures handle.Valid() && handle.pointer.holders == {handle}
      ensures handle.pointer.ptr == ctx && handle.scaleFactor == scale && handle.useCpu == useCpu
      ensures native.live == old(native.live) + {handle.pointer}
      ensures native.instances == (old(native.instances) + 1) % U8_LIMIT
    {
      var slot := new Slot(ctx);
      native.instances := (native.instances + 1) % U8_LIMIT;
      native.live := native.live + {slot};
      handle := new RealCugan(slot, scale, useCpu);
      slot.holders := {handle};
    }

    /** `Clone`: another handle on the same slot; the strong count goes up by one and nothing native happens. */
    method Clone() returns (c: RealCugan)
      requires Valid()
      modifies pointer
      ensures fresh(c) && c.pointer == pointer && c.scaleFactor == scaleFactor && c.useCpu == useCpu
      ensures pointer.strong == old(pointer.strong) + 1
      ensures pointer.holders == old(pointer.holders) + {c}
      ensures pointer.frees == old(pointer.frees) == 0
      ensures Valid() && c.Valid()
    {
      c := new RealCugan(pointer, scaleFactor, useCpu);
      pointer.strong := pointer.strong + 1;
      pointer.holders := pointer.holders + {c};
    }

    /**
      `Drop`: only the last holder frees the context (when it is not null) and
      decrements `INSTANCES`; the GPU instance is torn down when that
      decrement takes the counter from 1 to 0.
     */
    method Drop(native: Native)
      requires Valid() && native.Valid() && pointer in native.live
      modifies pointer, native
      ensures pointer.Valid() && native.Valid()
      ensures pointer.holders == old(pointer.holders) - {this}
      ensures pointer.strong == old(pointer.strong) - 1
      ensures native.calls == old(native.calls) + DropCalls(old(pointer.strong) == 1, pointer.ptr, old(native.instances))
      ensures old(pointer.strong) > 1 ==>
                pointer.frees == 0 && native.live == old(native.live) && native.instances == old(native.instances)
      ensures old(pointer.strong) == 1 ==>
                && pointer.frees == (if pointer.ptr != NULL then 1 else 0)
                && native.live == old(native.live) - {pointer}
                && native.instances == (old(native.instances) - 1) % U8_LIMIT
      // while fewer than 256 handle groups are live, teardown happens exactly when the last one goes
      ensures old(|native.live|) < U8_LIMIT ==>
                (DestroyGpuInstance in DropCalls(old(pointer.strong) == 1, pointer.ptr, old(native.instances))
                 <==> old(pointer.strong) == 1 && native.live == {})
    {
      if pointer.strong == 1 {
        assert pointer.holders == {this} by {
          assert |pointer.holders - {this}| == 0;
        }
        if |native.live| < U8_LIMIT {
          TeardownOnLastGroup(native.live, native.instances, pointer);
        }
        native.Release(pointer);
      }
      pointer.strong := pointer.strong - 1;
      pointer.holders := pointer.holders - {this};
    }

    /**
      `process` as written: a null context is refused before any native call;
      a nonzero status releases the result once and copies nothing; on success
      h*w*c bytes are copied and the result released once.  When that i32
      product wraps negative, the error returns before the release.
     */
    method Process(native: Native, inBuffer: NativeImage, outBuffer: NativeImage, channels: u8, status: i32)
      returns (r: Result<Picture>)
      requires Valid()
      modifies native`calls
      ensures pointer.ptr == NULL ==> r == Err(InvalidPointer) && native.calls == old(native.calls)
      ensures pointer.ptr != NULL && status != 0 ==>
                r == Err(ProcessFailed)
                && native.calls == old(native.calls) + [Run(pointer.ptr, useCpu, inBuffer, outBuffer), FreeImage]
      ensures pointer.ptr != NULL && status == 0 && BufferLength(outBuffer).Err? ==>
                r == Err(InvalidBufferLength)
                && native.calls == old(native.calls) + [Run(pointer.ptr, useCpu, inBuffer, outBuffer)]
      ensures pointer.ptr != NULL && status == 0 && BufferLength(outBuffer).Ok? ==>
                var n := BufferLength(outBuffer).value;
                r == ConvertImage(AsU32(outBuffer.w), AsU32(outBuffer.h), channels, n)
                && native.calls == old(native.calls) + [Run(pointer.ptr, useCpu, inBuffer, outBuffer), CopyOut(n), FreeImage]
      ensures native.calls == old(native.calls) + ProcessCalls(pointer.ptr, useCpu, inBuffer, outBuffer, status)
    {
      var ptr := pointer.ptr;
      if ptr == NULL {
        return Err(InvalidPointer);
      }
      native.calls := native.calls + [Run(ptr, useCpu, inBuffer, outBuffer)];
      if status != 0 {
        native.calls := native.calls + [FreeImage];
        return Err(ProcessFailed);
      }
      var length := BufferLength(outBuffer);
      if length.Err? {
        return Err(length.error);
      }
      native.calls := native.calls + [CopyOut(length.value), FreeImage];
      r := ConvertImage(AsU32(outBuffer.w), AsU32(outBuffer.h), channels, length.value);
    }

    /**
      `process` with the result released on every path after the native call:
      exactly one release follows the one native call, and bytes are copied
      only when the call succeeded and the length is representable.
     */
    method ProcessReleasing(native: Native, inBuffer: NativeImage, outBuffer: NativeImage, channels: u8, status: i32)
      returns (r: Result<Picture>)
      requires Valid()
      modifies native`calls
      ensures pointer.ptr == NULL ==> r == Err(InvalidPointer) && native.calls == old(native.calls)
      ensures pointer.ptr != NULL ==>
                && |native.calls| > |old(native.calls)|
                && native.calls[..|old(native.calls)|] == old(native.calls)
                && native.calls[|old(native.calls)|] == Run(pointer.ptr, useCpu, inBuffer, outBuffer)
                && native.calls[|native.calls| - 1] == FreeImage
                && FreeImage !in native.calls[|old(native.calls)|..|native.calls| - 1]
      ensures pointer.ptr != NULL && status != 0 ==> r == Err(ProcessFailed)
      ensures pointer.ptr != NULL && status == 0 && BufferLength(outBuffer).Err? ==> r == Err(InvalidBufferLength)
      ensures pointer.ptr != NULL && status == 0 && BufferLength(outBuffer).Ok? ==>
                var n := BufferLength(outBuffer).value;
                r == ConvertImage(AsU32(outBuffer.w), AsU32(outBuffer.h), channels, n)
                && native.calls == old(native.calls) + [Run(pointer.ptr, useCpu, inBuffer, outBuffer), CopyOut(n), FreeImage]
      ensures (exists n :: CopyOut(n) in native.calls[|old(native.calls)|..]) <==>
                pointer.ptr != NULL && status == 0 && BufferLength(outBuffer).Ok?
    {
      var ptr := pointer.ptr;
      if ptr == NULL {
        return Err(InvalidPointer);
      }
      native.calls := native.calls + [Run(ptr, useCpu, inBuffer, outBuffer)];
      if status != 0 {
        native.calls := native.calls + [FreeImage];
        return Err(ProcessFailed);
      }
      var length := BufferLength(outBuffer);
      if length.Err? {
        native.calls := native.calls + [FreeImage];
        return Err(length.error);
      }
      native.calls := native.calls + [CopyOut(length.value), FreeImage];
      r := ConvertImage(AsU32(outBuffer.w), AsU32(outBuffer.h), channels, length.value);
    }

    /**
      `process_image`: normalise the channels, describe the input and output
      buffers, and run `process` as written once.  Without overflow, an image
      of 1 to 4 bytes per pixel comes back at exactly its size times the scale
      factor; when the output length wraps the result is not released.
     */
    method ProcessImage(native: Native, img: Picture, storage: Ptr, status: i32) returns (r: Result<Picture>)
      requires Valid()
      modifies native`calls
      ensures img.width > I32_MAX ==> r == Err(InvalidWidth) && native.calls == old(native.calls)
      ensures img.width <= I32_MAX < img.height ==> r == Err(InvalidHeight) && native.calls == old(native.calls)
      ensures r.Ok? ==> pointer.ptr != NULL && status == 0
      ensures pointer.ptr != NULL && status == 0 && img.bytesPerPixel in {1, 2, 3, 4} && scaleFactor >= 1
              && FitsNative(img.width * scaleFactor, img.height * scaleFactor, PrepareImage(img).1)
              ==> r == Ok(Picture(img.width * scaleFactor, img.height * scaleFactor, PrepareImage(img).1))
      ensures img.width <= I32_MAX && img.height <= I32_MAX ==>
                var input := NativeImage(storage, img.width, img.height, PrepareImage(img).1);
                native.calls == old(native.calls)
                  + ProcessCalls(pointer.ptr, useCpu, input, CreateOutputBuffer(input, scaleFactor, PrepareImage(img).1), status)
    {
      var (image, channels) := PrepareImage(img);
      if scaleFactor >= 1 {
        MulAtLeast(img.width, scaleFactor);
        MulAtLeast(img.height, scaleFactor);
      }
      var input := CreateInputBuffer(image, storage, channels);
      if input.Err? {
        return Err(input.error);
      }
      var output := CreateOutputBuffer(input.value, scaleFactor, channels);
      r := Process(native, input.value, output, channels, status);
      if pointer.ptr != NULL && status == 0 && img.bytesPerPixel in {1, 2, 3, 4} && scaleFactor >= 1 {
        var outW: nat, outH: nat := img.width * scaleFactor, img.height * scaleFactor;
        if FitsNative(outW, outH, channels) {
          UpscaledBuffers(input.value, scaleFactor, channels, outW, outH);
        }
      }
    }
  }

  /**
    The sharing pattern of the thread test: clone a freshly built handle once
    per worker, drop every clone, then drop the original.  While any handle
    remains the context is not freed; the final drop frees it exactly once,
    and when it was the only live handle group the GPU instance is torn down.
   */
  method ShareAcrossWorkers(native: Native, handle: RealCugan, workers: nat)
    requires handle.Valid() && native.Valid() && handle.pointer in native.live
    requires handle.pointer.holders == {handle}
    modifies handle.pointer, native
    ensures handle.pointer.strong == 0
    ensures handle.pointer.frees == (if handle.pointer.ptr != NULL then 1 else 0)
    ensures native.live == old(native.live) - {handle.pointer}
    ensures native.calls == old(native.calls) + DropCalls(true, handle.pointer.ptr, old(native.instances))
    ensures native.instances == (old(native.instances) - 1) % U8_LIMIT
    ensures old(native.live) == {handle.pointer} ==>
              native.instances == 0 && native.calls[|native.calls| - 1] == DestroyGpuInstance
  {
    var slot := handle.pointer;
    var clones := CloneForWorkers(handle, workers);
    DropClones(native, handle, clones);
    var before := native.instances;
    ghost var calls0 := native.calls;
    handle.Drop(native);
    if old(native.live) == {slot} {
      var dropped := DropCalls(true, slot.ptr, before);
      assert before == 1 && dropped[|dropped| - 1] == DestroyGpuInstance;
      assert native.calls == calls0 + dropped;
      assert native.calls[|native.calls| - 1] == DestroyGpuInstance;
    }
  }

  /** The spawning half of the thread test: one clone of `handle` per worker, all distinct, all on its slot. */
  method CloneForWorkers(handle: RealCugan, workers: nat) returns (clones: seq<RealCugan>)
    requires handle.Valid() && handle.pointer.frees == 0
    modifies handle.pointer
    ensures |clones| == workers
    ensures handle.pointer.Valid() && handle in handle.pointer.holders && handle.pointer.frees == 0
    ensures handle.pointer.strong == old(handle.pointer.strong) + workers
    ensures forall k :: 0 <= k < |clones| ==> clones[k] in handle.pointer.holders && clones[k].pointer == handle.pointer && clones[k] != handle
    ensures forall a, b :: 0 <= a < b < |clones| ==> clones[a] != clones[b]
  {
    var slot := handle.pointer;
    clones := [];
    while |clones| < workers
      invariant |clones| <= workers
      invariant slot.Valid() && handle in slot.holders && slot.frees == 0
      invariant slot.strong == old(slot.strong) + |clones|
      invariant forall k :: 0 <= k < |clones| ==> clones[k] in slot.holders && clones[k].pointer == slot && clones[k] != handle
      invariant forall a, b :: 0 <= a < b < |clones| ==> clones[a] != clones[b]
      decreases workers - |clones|
    {
      var c := handle.Clone();
      clones := clones + [c];
    }
  }

  /** The joining half of the thread test: every worker drops its clone; `handle` is then the slot's only holder. */
  method DropClones(native: Native, handle: RealCugan, clones: seq<RealCugan>)
    requires native.Valid() && handle.pointer in native.live
    requires handle.pointer.Valid() && handle in handle.pointer.holders && handle.pointer.frees == 0
    requires handle.pointer.strong == |clones| + 1
    requires forall k :: 0 <= k < |clones| ==> clones[k] in handle.pointer.holders && clones[k].pointer == handle.pointer && clones[k] != handle
    requires forall a, b :: 0 <= a < b < |clones| ==> clones[a] != clones[b]
    modifies handle.pointer, native
    ensures native.Valid() && native.live == old(native.live)
    ensures native.calls == old(native.calls) && native.instances == old(native.instances)
    ensures handle.pointer.Valid() && handle.pointer.holders == {handle} && handle.pointer.frees == 0
  {
    var slot := handle.pointer;
    var i := 0;
    while i < |clones|
      invariant 0 <= i <= |clones|
      invariant native.Valid() && slot in native.live && native.live == old(native.live)
      invariant native.calls == old(native.calls) && native.instances == old(native.instances)
      invariant slot.Valid() && handle in slot.holders && slot.frees == 0
      invariant slot.strong == |clones| - i + 1
      invariant forall k :: i <= k < |clones| ==> clones[k] in slot.holders && clones[k].pointer == slot && clones[k] != handle
    {
      clones[i].Drop(native);
      i := i + 1;
    }
    assert slot.holders == {handle} by {
      assert |slot.holders - {handle}| == 0;
    }
  }
}

=== FILE: heuristics.dfy ===
/**
  Parameter heuristics of the newer revision (src/rs/realcugan.rs): the
  prepadding table and the tile size chosen from a requested size, the CPU
  sentinel or the device's reported heap budget.  The heap budget, which the
  source asks the native engine for, is a parameter here.
 */
module Heuristics {
  import opened Common

  /** The device selector that means "run on the CPU". */
  const CPU: int := -1
  const DEFAULT_CPU_TILE_SIZE: i32 := 400
  const MIN_TILE_SIZE: i32 := 32

  /** The tile sizes the heuristic can pick when no size was requested. */
  const TileSizes: set<int> := {32, 100, 200, 300, 400}

  /** Prepadding by scale: 18, 14 and 19 pixels for 2x, 3x and 4x, an error otherwise. */
  function CalculatePrepadding(scale: i32): (r: Result<i32>)
    ensures r.Ok? <==> scale in {2, 3, 4}
    ensures r.Err? ==> r.error == InvalidScale(scale)
    ensures scale == 2 ==> r == Ok(18)
    ensures scale == 3 ==> r == Ok(14)
    ensures scale == 4 ==> r == Ok(19)
  {
    match scale
    case 2 => Ok(18)
    case 3 => Ok(14)
    case 4 => Ok(19)
    case _ => Err(InvalidScale(scale))
  }

  /** (heap budget threshold, tile size) pairs, tried in order; None where the source returns 32 at once. */
  function Thresholds(scale: i32): (r: Option<seq<(int, int)>>)
    ensures r.Some? <==> scale in {2, 3, 4}
    ensures r.Some? ==> |r.value| == (if scale == 2 then 3 else 4)
    ensures r.Some? ==> forall i :: 0 <= i < |r.value| ==> r.value[i].1 in TileSizes - {MIN_TILE_SIZE as int}
  {
    match scale
    case 2 => Some([(1300, 400), (800, 300), (200, 100)])
    case 3 => Some([(3300, 400), (1900, 300), (950, 200), (320, 100)])
    case 4 => Some([(1690, 400), (980, 300), (530, 200), (240, 100)])
    case _ => None
  }

  /** Both thresholds and sizes strictly fall along the table. */
  ghost predicate Descending(table: seq<(int, int)>)
  {
    forall i, j :: 0 <= i < j < |table| ==> table[j].0 < table[i].0 && table[j].1 < table[i].1
  }

  /** `iter().find(|(t, _)| budget > t).map(|(_, s)| s)`: the size paired with the first threshold exceeded. */
  function FirstExceeded(table: seq<(int, int)>, budget: int): (r: Option<int>)
    ensures r.Some? <==> exists i :: 0 <= i < |table| && budget > table[i].0
    ensures r.Some? ==> exists i :: 0 <= i < |table| && budget > table[i].0 && r.value == table[i].1
                                   && forall j :: 0 <= j < i ==> budget <= table[j].0
  {
    if table == [] then None
    else if budget > table[0].0 then Some(table[0].1)
    else
      var rest := FirstExceeded(table[1..], budget);
      assert forall i :: 1 <= i < |table| ==> table[i] == table[1..][i - 1];
      rest
  }

  /**
    The tile size handed to the engine: a nonzero request wins, the CPU gets
    400, a GPU gets the size for its heap budget (reinterpreted as i32, as the
    source's `as i32` cast does) from the per-scale table, or 32.
   */
  function CalculateTileSize(tileSize: i32, scale: i32, gpu: i32, heapBudget: u32): (r: i32)
    ensures tileSize != 0 ==> r == tileSize
    ensures tileSize == 0 ==> r in TileSizes
    ensures tileSize == 0 && gpu == CPU ==> r == DEFAULT_CPU_TILE_SIZE
    ensures tileSize == 0 && gpu != CPU && scale !in {2, 3, 4} ==> r == MIN_TILE_SIZE
  {
    if tileSize != 0 then tileSize
    else if gpu == CPU then DEFAULT_CPU_TILE_SIZE
    else
      var budget := WrapI32(heapBudget);
      match Thresholds(scale)
      case None => MIN_TILE_SIZE
      case Some(table) =>
        var size := FirstExceeded(table, budget);
        assert size.Some? ==> size.value in TileSizes;
        size.GetOr(MIN_TILE_SIZE)
  }

  lemma ThresholdTablesDescend(scale: i32)
    ensures Thresholds(scale).Some? ==> Descending(Thresholds(scale).value)
  {
  }

  /** On a descending table the first threshold exceeded carries the largest size whose threshold is exceeded. */
  lemma FirstExceededIsLargest(table: seq<(int, int)>, budget: int, k: nat)
    requires Descending(table)
    requires k < |table| && budget > table[k].0
    ensures FirstExceeded(table, budget).Some?
    ensures table[k].1 <= FirstExceeded(table, budget).value
  {
  }

  /** On a descending table, more budget never selects a smaller size. */
  lemma {:induction false} FirstExceededMonotone(table: seq<(int, int)>, b1: int, b2: int, floor: int)
    requires Descending(table)
    requires forall i :: 0 <= i < |table| ==> floor <= table[i].1
    requires b1 <= b2
    ensures FirstExceeded(table, b1).GetOr(floor) <= FirstExceeded(table, b2).GetOr(floor)
  {
    if table != [] && b1 <= table[0].0 {
      var tail := table[1..];
      assert forall i :: 0 <= i < |tail| ==> tail[i] == table[i + 1];
      if b2 <= table[0].0 {
        FirstExceededMonotone(tail, b1, b2, floor);
      } else {
        var r1 := FirstExceeded(table, b1);
        if r1.Some? {
          var i :| 0 <= i < |table| && b1 > table[i].0 && r1.value == table[i].1;
          assert i > 0;
        }
      }
    }
  }

  /**
    For 2x, 3x and 4x on a GPU with no requested size, the result is the
    largest size of the scale's table whose threshold the budget strictly
    exceeds, and 32 when it exceeds none.
   */
  lemma TileSizeIsLargestAffordable(scale: i32, gpu: i32, heapBudget: u32)
    requires gpu != CPU && scale in {2, 3, 4}
    ensures var r := CalculateTileSize(0, scale, gpu, heapBudget);
            var table := Thresholds(scale).value;
            && (r == MIN_TILE_SIZE || exists i :: 0 <= i < |table| && WrapI32(heapBudget) > table[i].0 && r == table[i].1)
            && (forall i :: 0 <= i < |table| && WrapI32(heapBudget) > table[i].0 ==> table[i].1 <= r)
  {
    var table := Thresholds(scale).value;
    ThresholdTablesDescend(scale);
    forall i | 0 <= i < |table| && WrapI32(heapBudget) > table[i].0
      ensures table[i].1 <= CalculateTileSize(0, scale, gpu, heapBudget)
    {
      FirstExceededIsLargest(table, WrapI32(heapBudget), i);
    }
  }

  /** Within the i32 range of the budget, the chosen size never shrinks as the budget grows. */
  lemma TileSizeMonotoneInBudget(scale: i32, gpu: i32, b1: u32, b2: u32)
    requires b1 <= b2 <= I32_MAX
    ensures CalculateTileSize(0, scale, gpu, b1) <= CalculateTileSize(0, scale, gpu, b2)
  {
    if gpu != CPU && Thresholds(scale).Some? {
      ThresholdTablesDescend(scale);
      FirstExceededMonotone(Thresholds(scale).value, b1, b2, MIN_TILE_SIZE);
    }
  }

  /** A budget of 2^31 or more turns negative under the `as i32` cast and falls through to the minimum size. */
  lemma HugeBudgetFallsToMinimum(scale: i32, gpu: i32, heapBudget: u32)
    requires gpu != CPU && heapBudget > I32_MAX
    ensures CalculateTileSize(0, scale, gpu, heapBudget) == MIN_TILE_SIZE
  {
    assert WrapI32(heapBudget) < 0;
  }
}

=== FILE: legacy.dfy ===
/**
  The older revision of the binding (src/lib.rs): a builder with clamping
  setters that locates the model files by a directory convention, a
  parameter heuristic with its own threshold table, and a handle that owns
  its native context alone (there is no `Clone`).

  The file system is an oracle `present` telling whether a path exists, the
  current directory is a parameter, and the native engine's answers are
  parameters as in the newer revision.  A `panic!` (and an `unwrap` that
  fails) is modelled as the result `Err(Panic)`.
 */
module Legacy {
  import opened Common
  import opened Marshal

  datatype Model = Nose | Pro | Se

  datatype RealCuganBuilder = RealCuganBuilder(
    gpu: i32, noise: i32, scale: i32, tileSize: i32, syncGap: i32, threads: i32, ttaMode: bool,
    model: Model, directory: string, modelPaths: (string, string))

  /** `RealCuganBuilder::new`: GPU 0, conservative, 2x, SE, automatic tile size, no sync gap, no TTA, 0 threads, the current directory. */
  function New(currentDir: Option<string>): (b: RealCuganBuilder)
    ensures b.gpu == 0 && b.noise == -1 && b.scale == 2 && b.model == Se
    ensures b.tileSize == 0 && b.syncGap == 0 && !b.ttaMode && b.threads == 0
    ensures b.directory == (if currentDir.Some? then currentDir.value else "")
    ensures b.modelPaths == ("", "")
    ensures InRange(b)
  {
    RealCuganBuilder(0, -1, 2, 0, 0, 0, false, Se, currentDir.GetOr(""), ("", ""))
  }

  /** The ranges the clamping setters keep: scale 2 to 4, tile size 0 to 32, sync gap 0 to 3. */
  predicate InRange(b: RealCuganBuilder)
  {
    2 <= b.scale <= 4 && 0 <= b.tileSize <= 32 && 0 <= b.syncGap <= 3
  }

  /** `gpu`: the u32 index is cast to i32. */
  function Gpu(b: RealCuganBuilder, gpu: u32): (r: RealCuganBuilder)
    ensures gpu <= I32_MAX ==> r.gpu == gpu
    ensures gpu > I32_MAX ==> r.gpu == gpu - U32_LIMIT
    ensures r.gpu == -1 <==> gpu == U32_LIMIT - 1
    ensures r == b.(gpu := r.gpu)
  {
    b.(gpu := WrapI32(gpu))
  }

  /**
    `noise` as written: the range checks pick a clamped value (and print a
    warning), but the assignment after them stores the argument unchanged.
   */
  function Noise(b: RealCuganBuilder, noise: i32): (r: RealCuganBuilder)
    ensures r.noise == noise
    ensures r == b.(noise := r.noise)
  {
    var clamped := if noise < -1 then -1 else if noise > 3 then 3 else noise;
    var b' := b.(noise := clamped);
    b'.(noise := noise)
  }

  /** Out-of-range noise gets through the setter: 7 is stored, and the model looked up is `denoise7x`. */
  lemma NoiseClampDefeated(b: RealCuganBuilder)
    ensures Noise(b, 7).noise == 7 && Noise(b, -5).noise == -5
    ensures NoiseSuffix(Noise(b, 7).noise) == "denoise7x"
  {
    assert Decimal(7) == "7";
  }

  /** `noise` as its warnings describe it: values below -1 become -1, values above 3 become 3. */
  function NoiseClamped(b: RealCuganBuilder, noise: i32): (r: RealCuganBuilder)
    ensures -1 <= r.noise <= 3
    ensures -1 <= noise <= 3 ==> r.noise == noise
    ensures noise < -1 ==> r.noise == -1
    ensures noise > 3 ==> r.noise == 3
    ensures r == b.(noise := r.noise)
  {
    b.(noise := if noise < -1 then -1 else if noise > 3 then 3 else noise)
  }

  /** With the clamp in force, only the five noise levels the model files exist for can reach the path lookup. */
  lemma ClampedNoiseNamesKnownFile(b: RealCuganBuilder, noise: i32)
    ensures NoiseSuffix(NoiseClamped(b, noise).noise)
            in {"conservative", "no-denoise", "denoise1x", "denoise2x", "denoise3x"}
  {
    var n := NoiseClamped(b, noise).noise;
    if n == 1 {
      assert Decimal(1) == "1";
      assert NoiseSuffix(1) == "denoise1x";
    } else if n == 2 {
      assert Decimal(2) == "2";
      assert NoiseSuffix(2) == "denoise2x";
    } else if n == 3 {
      assert Decimal(3) == "3";
      assert NoiseSuffix(3) == "denoise3x";
    }
  }

  /** `scale`: values below 2 become 2, values above 4 become 4. */
  function Scale(b: RealCuganBuilder, scale: u32): (r: RealCuganBuilder)
    ensures 2 <= r.scale <= 4
    ensures 2 <= scale <= 4 ==> r.scale == scale
    ensures scale < 2 ==> r.scale == 2
    ensures scale > 4 ==> r.scale == 4
    ensures r == b.(scale := r.scale)
  {
    if scale < 2 then b.(scale := 2)
    else if scale > 4 then b.(scale := 4)
    else b.(scale := scale)
  }

  function WithModel(b: RealCuganBuilder, model: Model): (r: RealCuganBuilder)
    ensures r.model == model
    ensures r == b.(model := r.model)
  {
    b.(model := model)
  }

  /** `tile_size`: values above 32 become 32; 0 keeps the automatic choice. */
  function TileSize(b: RealCuganBuilder, tileSize: u32): (r: RealCuganBuilder)
    ensures 0 <= r.tileSize <= 32
    ensures tileSize <= 32 ==> r.tileSize == tileSize
    ensures tileSize > 32 ==> r.tileSize == 32
    ensures r == b.(tileSize := r.tileSize)
  {
    if tileSize > 32 then b.(tileSize := 32) else b.(tileSize := tileSize)
  }

  /** `sync_gap`: values above 3 become 3. */
  function SyncGap(b: RealCuganBuilder, syncGap: u32): (r: RealCuganBuilder)
    ensures 0 <= r.syncGap <= 3
    ensures syncGap <= 3 ==> r.syncGap == syncGap
    ensures syncGap > 3 ==> r.syncGap == 3
    ensures r == b.(syncGap := r.syncGap)
  {
    if syncGap > 3 then b.(syncGap := 3) else b.(syncGap := syncGap)
  }

  function TtaMode(b: RealCuganBuilder, ttaMode: bool): (r: RealCuganBuilder)
    ensures r.ttaMode == ttaMode
    ensures r == b.(ttaMode := r.ttaMode)
  {
    b.(ttaMode := ttaMode)
  }

  function Threads(b: RealCuganBuilder, threads: i32): (r: RealCuganBuilder)
    ensures r.threads == threads
    ensures r == b.(threads := r.threads)
  {
    b.(threads := threads)
  }

  function Directory(b: RealCuganBuilder, directory: string): (r: RealCuganBuilder)
    ensures r.directory == directory
    ensures r == b.(directory := r.directory)
  {
    b.(directory := directory)
  }

  function Cpu(b: RealCuganBuilder): (r: RealCuganBuilder)
    ensures r.gpu == -1
    ensures r == b.(gpu := r.gpu)
  {
    b.(gpu := -1)
  }

  /** Every setter keeps the clamped ranges, so every builder reachable from `new` is in range. */
  lemma SettersKeepRanges(b: RealCuganBuilder, n: i32, x: u32, t: i32, flag: bool, m: Model, dir: string)
    requires InRange(b)
    ensures InRange(Gpu(b, x)) && InRange(Noise(b, n)) && InRange(Scale(b, x)) && InRange(WithModel(b, m))
    ensures InRange(TileSize(b, x)) && InRange(SyncGap(b, x)) && InRange(TtaMode(b, flag))
    ensures InRange(Threads(b, t)) && InRange(Directory(b, dir)) && InRange(Cpu(b))
  {
  }

  /** `get_prepadding`: 18, 14 and 19 for 2x, 3x and 4x; any other scale panics. */
  function GetPrepadding(b: RealCuganBuilder): (r: Result<i32>)
    ensures r.Ok? <==> b.scale in {2, 3, 4}
    ensures r.Err? ==> r.error == Panic
    ensures b.scale == 2 ==> r == Ok(18)
    ensures b.scale == 3 ==> r == Ok(14)
    ensures b.scale == 4 ==> r == Ok(19)
  {
    match b.scale
    case 2 => Ok(18)
    case 3 => Ok(14)
    case 4 => Ok(19)
    case _ => Err(Panic)
  }

  /** The panic cannot be reached through the setters: the scale setter clamps. */
  lemma PrepaddingNeverPanics(b: RealCuganBuilder)
    requires InRange(b)
    ensures GetPrepadding(b).Ok? && GetPrepadding(b).value in {14, 18, 19}
  {
  }

  /** `get_sync_gap`: SE models always get 0, the others the configured gap. */
  function GetSyncGap(b: RealCuganBuilder): (r: i32)
    ensures b.model == Se ==> r == 0
    ensures b.model != Se ==> r == b.syncGap
    ensures InRange(b) ==> 0 <= r <= 3
  {
    match b.model
    case Se => 0
    case _ => b.syncGap
  }

  /** The directory of a model family. */
  function FamilyDir(m: Model): (s: string)
    ensures m == Se <==> s == "models-se"
    ensures m == Nose <==> s == "models-nose"
    ensures m == Pro <==> s == "models-pro"
  {
    match m
    case Se => "models-se"
    case Nose => "models-nose"
    case Pro => "models-pro"
  }

  /** The file-name suffix for a noise level: conservative for -1, no-denoise for 0, denoise{N}x otherwise. */
  function NoiseSuffix(noise: int): (s: string)
    ensures noise == -1 ==> s == "conservative"
    ensures noise == 0 ==> s == "no-denoise"
    ensures noise !in {-1, 0} ==> s == "denoise" + Decimal(noise) + "x"
  {
    match noise
    case -1 => "conservative"
    case 0 => "no-denoise"
    case _ => "denoise" + Decimal(noise) + "x"
  }

  /** Different noise levels name different files. */
  lemma NoiseSuffixInjective(a: int, b: int)
    requires NoiseSuffix(a) == NoiseSuffix(b)
    ensures a == b
  {
    var s := NoiseSuffix(a);
    assert a !in {-1, 0} ==> s[0] == 'd';
    assert b !in {-1, 0} ==> NoiseSuffix(b)[0] == 'd';
    if a !in {-1, 0} && b !in {-1, 0} {
      var da, db := Decimal(a), Decimal(b);
      assert s == "denoise" + da + "x" == "denoise" + db + "x";
      assert da == s[7..|s| - 1] == db;
      DecimalInjective(a, b);
    }
  }

  /** `{dir}/{family}/up{scale}x-{suffix}`, the path of a model file without its extension. */
  function ModelStem(dir: string, m: Model, scale: int, noise: int): (stem: string)
    ensures |stem| > |dir| + 1 && stem[..|dir| + 1] == dir + "/"
  {
    dir + "/" + FamilyDir(m) + "/up" + Decimal(scale) + "x-" + NoiseSuffix(noise)
  }

  /**
    Within one directory, the stem determines the family, the scale and the
    noise level: no two settings share a model file.
   */
  lemma ModelStemInjective(dir: string, m1: Model, scale1: int, noise1: int, m2: Model, scale2: int, noise2: int)
    requires ModelStem(dir, m1, scale1, noise1) == ModelStem(dir, m2, scale2, noise2)
    ensures m1 == m2 && scale1 == scale2 && noise1 == noise2
  {
    var f1, f2 := FamilyDir(m1), FamilyDir(m2);
    var k := |dir| + 1 + 7;
    assert ModelStem(dir, m1, scale1, noise1)[k] == f1[7];
    assert ModelStem(dir, m2, scale2, noise2)[k] == f2[7];
    assert f1[7] == f2[7];
    assert m1 == m2 by {
      assert m1 == Se <==> f1[7] == 's';
      assert m2 == Se <==> f2[7] == 's';
      assert m1 == Nose <==> f1[7] == 'n';
      assert m2 == Nose <==> f2[7] == 'n';
    }
    var head := dir + "/" + f1 + "/up";
    DecimalHasNoX(scale1);
    DecimalHasNoX(scale2);
    SplitAtX(head, Decimal(scale1), NoiseSuffix(noise1), Decimal(scale2), NoiseSuffix(noise2));
    DecimalInjective(scale1, scale2);
    NoiseSuffixInjective(noise1, noise2);
  }

  lemma DecimalHasNoX(n: int)
    ensures forall i :: 0 <= i < |Decimal(n)| ==> Decimal(n)[i] != 'x'
  {
    var s := Decimal(n);
    assert s[0] == '-' || '0' <= s[0] <= '9';
  }

  /** Where the text before the first 'x' of two equal strings is free of 'x', the pieces around "x-" agree. */
  lemma SplitAtX(head: string, a: string, b: string, c: string, d: string)
    requires forall i :: 0 <= i < |a| ==> a[i] != 'x'
    requires forall i :: 0 <= i < |c| ==> c[i] != 'x'
    requires head + a + "x-" + b == head + c + "x-" + d
    ensures a == c && b == d
  {
    var l, r := head + a + "x-" + b, head + c + "x-" + d;
    assert l[|head| + |a|] == 'x' && r[|head| + |c|] == 'x';
    assert forall i :: |head| <= i < |head| + |a| ==> l[i] == a[i - |head|];
    assert forall i :: |head| <= i < |head| + |c| ==> r[i] == c[i - |head|];
    assert a == l[|head|..|head| + |a|];
    assert c == r[|head|..|head| + |c|];
    assert b == l[|head| + |a| + 2..];
    assert d == r[|head| + |c| + 2..];
  }

  /**
    The (bin, param) pair `create_model_paths` looks for: one stem, two
    extensions.  Both paths lie under the directory given, end in `.bin` and
    `.param`, and differ in nothing else.
   */
  function ModelPaths(dir: string, m: Model, scale: int, noise: int): (paths: (string, string))
    ensures var (bin, param) := paths;
            && |bin| > |dir| + 1 && bin[..|dir| + 1] == dir + "/"
            && |param| > |dir| + 1 && param[..|dir| + 1] == dir + "/"
            && |bin| >= 4 && bin[|bin| - 4..] == ".bin"
            && |param| >= 6 && param[|param| - 6..] == ".param"
            && bin[..|bin| - 4] == param[..|param| - 6] == ModelStem(dir, m, scale, noise)
  {
    var stem := ModelStem(dir, m, scale, noise);
    StemPaths(dir + "/", stem);
    (stem + ".bin", stem + ".param")
  }

  /** Within one directory, different settings look for different bin files and different param files. */
  lemma DistinctSettingsDistinctFiles(dir: string, m1: Model, scale1: int, noise1: int, m2: Model, scale2: int, noise2: int)
    requires ModelPaths(dir, m1, scale1, noise1).0 == ModelPaths(dir, m2, scale2, noise2).0
          || ModelPaths(dir, m1, scale1, noise1).1 == ModelPaths(dir, m2, scale2, noise2).1
    ensures m1 == m2 && scale1 == scale2 && noise1 == noise2
  {
    ModelStemInjective(dir, m1, scale1, noise1, m2, scale2, noise2);
  }

  lemma StemPaths(head: string, stem: string)
    requires |stem| >= |head| && stem[..|head|] == head
    ensures var bin, param := stem + ".bin", stem + ".param";
            && bin[..|head|] == head && param[..|head|] == head
            && bin[|bin| - 4..] == ".bin" && param[|param| - 6..] == ".param"
            && bin[..|bin| - 4] == stem == param[..|param| - 6]
  {
    var bin, param := stem + ".bin", stem + ".param";
    assert bin[..|head|] == stem[..|head|];
    assert param[..|head|] == stem[..|head|];
  }

  /**
    `create_model_paths`: the directory must exist, then the bin file, then
    the param file; only when all three do are the paths stored, and on any
    error the builder is left as it was.
   */
  method CreateModelPaths(b: RealCuganBuilder, present: string -> bool) returns (updated: RealCuganBuilder, r: Result<()>)
    ensures var paths := ModelPaths(b.directory, b.model, b.scale, b.noise);
            && (r.Ok? <==> present(b.directory) && present(paths.0) && present(paths.1))
            && (!present(b.directory) ==> r == Err(MissingDirectory(b.directory)))
            && (present(b.directory) && !present(paths.0) ==> r == Err(MissingModelFile(paths.0)))
            && (present(b.directory) && present(paths.0) && !present(paths.1) ==> r == Err(MissingModelFile(paths.1)))
            && (r.Ok? ==> updated == b.(modelPaths := paths))
    ensures r.Err? ==> updated == b
  {
    updated := b;
    if !present(b.directory) {
      return updated, Err(MissingDirectory(b.directory));
    }
    var paths := ModelPaths(b.directory, b.model, b.scale, b.noise);
    if !present(paths.0) {
      return updated, Err(MissingModelFile(paths.0));
    } else if !present(paths.1) {
      return updated, Err(MissingModelFile(paths.1));
    }
    updated := b.(modelPaths := paths);
    r := Ok(());
  }

  /**
    `get_tile_size` as written: a nonzero size wins, the CPU gets 400, and a
    GPU is sized by comparing the unsigned heap budget with per-scale
    thresholds.  The first 3x threshold is 330.
   */
  function GetTileSize(b: RealCuganBuilder, heapBudget: u32): (r: int)
    ensures I32_MIN <= r <= I32_MAX
    ensures b.tileSize != 0 ==> r == b.tileSize
    ensures b.tileSize == 0 && b.gpu == -1 ==> r == 400
    ensures b.tileSize == 0 && b.gpu != -1 ==> r in {32, 100, 200, 300, 400}
    ensures b.tileSize == 0 && b.gpu != -1 && b.scale !in {2, 3, 4} ==> r == 32
  {
    if b.tileSize != 0 then b.tileSize
    else if b.gpu == -1 then 400
    else
      match b.scale
      case 2 =>
        if heapBudget > 1300 then 400
        else if heapBudget > 800 then 300
        else if heapBudget > 200 then 100
        else 32
      case 3 =>
        if heapBudget > 330 then 400
        else if heapBudget > 1900 then 300
        else if heapBudget > 950 then 200
        else if heapBudget > 320 then 100
        else 32
      case 4 =>
        if heapBudget > 1690 then 400
        else if heapBudget > 980 then 300
        else if heapBudget > 530 then 200
        else if heapBudget > 240 then 100
        else 32
      case _ => 32
  }

  /** At 3x the 300 and 200 branches are dead: a budget above 330 already took the 400 branch. */
  lemma Scale3NeverMidSizes(b: RealCuganBuilder, heapBudget: u32)
    requires b.tileSize == 0 && b.gpu != -1 && b.scale == 3
    ensures GetTileSize(b, heapBudget) !in {200, 300}
    ensures GetTileSize(b, heapBudget) == (if heapBudget > 330 then 400 else if heapBudget > 320 then 100 else 32)
  {
  }

  /** Through the setters, a requested tile size can never exceed 32. */
  lemma RequestedTileSizeAtMost32(b: RealCuganBuilder, tileSize: u32, heapBudget: u32)
    requires tileSize != 0
    ensures GetTileSize(TileSize(b, tileSize), heapBudget) == (if tileSize > 32 then 32 else tileSize)
  {
  }

  /** A call across the native boundary of this revision, or a copy out of engine memory. */
  datatype Call =
    | InitGpuInstance
    | GetGpuCount
    | DestroyGpuInstance
    | GetHeapBudget(gpu: int)
    | InitContext(gpu: int, tta: bool, threads: int, noise: int, scale: int, tileSize: int, prepadding: int, syncGap: int)
    | Load(ctx: Ptr, paramPath: string, binPath: string)
    | Run(ctx: Ptr, cpu: bool, input: NativeImage, output: NativeImage)
    | CopyOut(length: nat)
    | FreeImage
    | Free(ctx: Ptr)

  /** The native side as this revision sees it: only the log of calls made. */
  class Engine {
    ghost var calls: seq<Call>

    constructor ()
      ensures calls == []
    {
      calls := [];
    }
  }

  /** The calls `init_gpu` makes: none for the CPU, else instance creation and the device count, plus a teardown when the index is too large. */
  function InitGpuCalls(gpu: i32, gpuCount: i32): (calls: seq<Call>)
    ensures gpu == -1 <==> calls == []
    ensures gpu != -1 ==> |calls| >= 2 && calls[..2] == [InitGpuInstance, GetGpuCount]
  {
    if gpu == -1 then []
    else if gpu >= gpuCount then [InitGpuInstance, GetGpuCount, DestroyGpuInstance]
    else [InitGpuInstance, GetGpuCount]
  }

  /** A path holding a NUL character cannot become a C string. */
  predicate HasNul(s: string)
  {
    exists i :: 0 <= i < |s| && s[i] == '\0'
  }

  /** A handle of this revision: it owns its context and frees it on drop. */
  class RealCugan {
    const pointer: Ptr
    const scale: i32
    const useCpu: bool
    ghost var dropped: bool

    constructor (pointer: Ptr, scale: i32, useCpu: bool)
      ensures this.pointer == pointer && this.scale == scale && this.useCpu == useCpu && !dropped
    {
      this.pointer := pointer;
      this.scale := scale;
      this.useCpu := useCpu;
      dropped := false;
    }

    /**
      `process`: run the engine with neither a null check nor a status check,
      then copy h*w*c bytes and release the result.  A negative (wrapped)
      byte count returns before the release.
     */
    method Process(engine: Engine, inBuffer: NativeImage, outBuffer: NativeImage, channels: u8) returns (r: Result<Picture>)
      modifies engine
      ensures BufferLength(outBuffer).Err? ==>
                r == Err(InvalidBufferLength) && engine.calls == old(engine.calls) + [Run(pointer, useCpu, inBuffer, outBuffer)]
      ensures BufferLength(outBuffer).Ok? ==>
                var n := BufferLength(outBuffer).value;
                r == ConvertImage(AsU32(outBuffer.w), AsU32(outBuffer.h), channels, n)
                && engine.calls == old(engine.calls) + [Run(pointer, useCpu, inBuffer, outBuffer), CopyOut(n), FreeImage]
    {
      engine.calls := engine.calls + [Run(pointer, useCpu, inBuffer, outBuffer)];
      var length := BufferLength(outBuffer);
      if length.Err? {
        return Err(length.error);
      }
      engine.calls := engine.calls + [CopyOut(length.value), FreeImage];
      r := ConvertImage(AsU32(outBuffer.w), AsU32(outBuffer.h), channels, length.value);
    }

    /**
      `upscale_image`: normalise the channels, describe the buffers (the
      output at this handle's scale) and process, whose run, copy-out and
      release are logged.  Without overflow an image of 1 to 4 bytes per
      pixel comes back at its size times the scale.
     */
    method UpscaleImage(engine: Engine, img: Picture, storage: Ptr) returns (r: Result<Picture>)
      modifies engine
      ensures img.width > I32_MAX ==> r == Err(InvalidWidth) && engine.calls == old(engine.calls)
      ensures img.width <= I32_MAX < img.height ==> r == Err(InvalidHeight) && engine.calls == old(engine.calls)
      ensures img.bytesPerPixel in {1, 2, 3, 4} && scale >= 1
              && FitsNative(img.width * scale, img.height * scale, PrepareImage(img).1)
              ==> r == Ok(Picture(img.width * scale, img.height * scale, PrepareImage(img).1))
      ensures img.width <= I32_MAX && img.height <= I32_MAX ==>
                var input := NativeImage(storage, img.width, img.height, PrepareImage(img).1);
                var out := CreateOutputBuffer(input, scale, PrepareImage(img).1);
                engine.calls == old(engine.calls) + [Run(pointer, useCpu, input, out)]
                  + (if BufferLength(out).Ok? then [CopyOut(BufferLength(out).value), FreeImage] else [])
    {
      var (image, channels) := PrepareImage(img);
      if scale >= 1 {
        MulAtLeast(img.width, scale);
        MulAtLeast(img.height, scale);
      }
      var input := CreateInputBuffer(image, storage, channels);
      if input.Err? {
        return Err(input.error);
      }
      var output := CreateOutputBuffer(input.value, scale, channels);
      r := Process(engine, input.value, output, channels);
      if img.bytesPerPixel in {1, 2, 3, 4} && scale >= 1 {
        var outW: nat, outH: nat := img.width * scale, img.height * scale;
        if FitsNative(outW, outH, channels) {
          UpscaledBuffers(input.value, scale, channels, outW, outH);
        }
      }
    }

    /** `Drop`: free the context, null or not; this revision never tears the GPU instance down on drop. */
    method Drop(engine: Engine)
      requires !dropped
      modifies this, engine
      ensures dropped
      ensures engine.calls == old(engine.calls) + [Free(pointer)]
    {
      engine.calls := engine.calls + [Free(pointer)];
      dropped := true;
    }
  }

  /** `init_gpu`: nothing for the CPU; otherwise create the GPU instance and count devices, and on a missing device tear down and panic. */
  method InitGpu(b: RealCuganBuilder, engine: Engine, gpuCount: i32) returns (r: Result<()>)
    modifies engine
    ensures r.Ok? <==> b.gpu == -1 || b.gpu < gpuCount
    ensures r.Err? ==> r.error == Panic
    ensures engine.calls == old(engine.calls) + InitGpuCalls(b.gpu, gpuCount)
  {
    r := Ok(());
    if b.gpu == -1 {
      return;
    }
    engine.calls := engine.calls + [InitGpuInstance, GetGpuCount];
    if b.gpu >= gpuCount {
      engine.calls := engine.calls + [DestroyGpuInstance];
      r := Err(Panic);
    }
  }

  /** `init_model`: both stored paths become C strings, bin first, and are handed to the engine; the outcome is not checked. */
  method InitModel(b: RealCuganBuilder, engine: Engine, ctx: Ptr) returns (r: Result<()>)
    modifies engine
    ensures r.Ok? <==> !HasNul(b.modelPaths.0) && !HasNul(b.modelPaths.1)
    ensures r.Err? ==> r.error == Panic && engine.calls == old(engine.calls)
    ensures r.Ok? ==> engine.calls == old(engine.calls) + [Load(ctx, b.modelPaths.1, b.modelPaths.0)]
  {
    var (binPath, paramPath) := b.modelPaths;
    if HasNul(binPath) || HasNul(paramPath) {
      return Err(Panic);
    }
    engine.calls := engine.calls + [Load(ctx, paramPath, binPath)];
    r := Ok(());
  }

  /** The calls `init` makes once the device check has passed. */
  function InitCalls(b: RealCuganBuilder, heapBudget: u32, ctx: Ptr): (calls: seq<Call>)
    requires InRange(b)
    ensures GetHeapBudget(b.gpu) in calls <==> b.tileSize == 0 && b.gpu != -1
    ensures |calls| >= 2 && calls[|calls| - 1] == Load(ctx, b.modelPaths.1, b.modelPaths.0)
    ensures var init := calls[|calls| - 2];
            && init.InitContext? && init.gpu == b.gpu && init.scale == b.scale && init.noise == b.noise
            && init.tileSize == GetTileSize(b, heapBudget) && init.prepadding == GetPrepadding(b).value
            && init.syncGap == GetSyncGap(b)
  {
    (if b.tileSize == 0 && b.gpu != -1 then [GetHeapBudget(b.gpu)] else [])
    + [InitContext(b.gpu, b.ttaMode, b.threads, b.noise, b.scale, GetTileSize(b, heapBudget), GetPrepadding(b).value, GetSyncGap(b)),
       Load(ctx, b.modelPaths.1, b.modelPaths.0)]
  }

  /**
    `init`: check the device, then evaluate the arguments of `realcugan_init`
    left to right (the heap budget is asked for before the prepadding can
    panic), create the context and load the model into it.
   */
  method Init(b: RealCuganBuilder, engine: Engine, gpuCount: i32, heapBudget: u32, ctx: Ptr) returns (r: Result<Ptr>)
    modifies engine
    ensures b.gpu != -1 && b.gpu >= gpuCount ==> r == Err(Panic) && engine.calls == old(engine.calls) + InitGpuCalls(b.gpu, gpuCount)
    ensures (b.gpu == -1 || b.gpu < gpuCount) && InRange(b) && !HasNul(b.modelPaths.0) && !HasNul(b.modelPaths.1) ==>
              r == Ok(ctx) && engine.calls == old(engine.calls) + InitGpuCalls(b.gpu, gpuCount) + InitCalls(b, heapBudget, ctx)
    // the prepadding panics on a scale outside 2..4, after the budget query and before the context exists
    ensures (b.gpu == -1 || b.gpu < gpuCount) && b.scale !in {2, 3, 4} ==>
              r == Err(Panic)
              && engine.calls == old(engine.calls) + InitGpuCalls(b.gpu, gpuCount)
                 + (if b.tileSize == 0 && b.gpu != -1 then [GetHeapBudget(b.gpu)] else [])
    // a path holding NUL panics after the context is created, and the context is left behind
    ensures (b.gpu == -1 || b.gpu < gpuCount) && InRange(b) && (HasNul(b.modelPaths.0) || HasNul(b.modelPaths.1)) ==>
              var calls := InitCalls(b, heapBudget, ctx);
              r == Err(Panic) && engine.calls == old(engine.calls) + InitGpuCalls(b.gpu, gpuCount) + calls[..|calls| - 1]
    ensures r.Ok? ==> r.value == ctx
    ensures r.Err? ==> r.error == Panic
  {
    var gpuOk := InitGpu(b, engine, gpuCount);
    if gpuOk.Err? {
      return Err(Panic);
    }
    ghost var checked := engine.calls;
    if b.tileSize == 0 && b.gpu != -1 {
      engine.calls := engine.calls + [GetHeapBudget(b.gpu)];
    }
    var tileSize := GetTileSize(b, heapBudget);
    var prepadding := GetPrepadding(b);
    if prepadding.Err? {
      return Err(Panic);
    }
    var syncGap := GetSyncGap(b);
    engine.calls := engine.calls + [InitContext(b.gpu, b.ttaMode, b.threads, b.noise, b.scale, tileSize, prepadding.value, syncGap)];
    ghost var created := engine.calls;
    var loaded := InitModel(b, engine, ctx);
    if loaded.Err? {
      if InRange(b) {
        ghost var calls := InitCalls(b, heapBudget, ctx);
        assert engine.calls == created == checked + calls[..|calls| - 1];
      }
      return Err(Panic);
    }
    r := Ok(ctx);
  }

  /**
    `build`: locate the model files, then initialise; the handle owns the
    context created.  A path with a NUL panics after the context was
    created, and a load that fails inside the engine goes unnoticed.
   */
  method Build(b: RealCuganBuilder, engine: Engine, present: string -> bool,
               gpuCount: i32, heapBudget: u32, ctx: Ptr)
    returns (r: Result<RealCugan>)
    modifies engine
    ensures var paths := ModelPaths(b.directory, b.model, b.scale, b.noise);
            !(present(b.directory) && present(paths.0) && present(paths.1)) ==>
              r.Err? && r.error != Panic && engine.calls == old(engine.calls)
    ensures var paths := ModelPaths(b.directory, b.model, b.scale, b.noise);
            present(b.directory) && present(paths.0) && present(paths.1) && b.gpu != -1 && b.gpu >= gpuCount ==>
              r == Err(Panic) && engine.calls == old(engine.calls) + InitGpuCalls(b.gpu, gpuCount)
    ensures var paths := ModelPaths(b.directory, b.model, b.scale, b.noise);
            present(b.directory) && present(paths.0) && present(paths.1) && (b.gpu == -1 || b.gpu < gpuCount)
            && InRange(b) && !HasNul(paths.0) && !HasNul(paths.1) ==>
              && r.Ok? && fresh(r.value)
              && engine.calls == old(engine.calls) + InitGpuCalls(b.gpu, gpuCount)
                 + InitCalls(b.(modelPaths := paths), heapBudget, ctx)
    ensures var paths := ModelPaths(b.directory, b.model, b.scale, b.noise);
            present(b.directory) && present(paths.0) && present(paths.1) && (b.gpu == -1 || b.gpu < gpuCount)
            && b.scale !in {2, 3, 4} ==>
              r == Err(Panic)
              && engine.calls == old(engine.calls) + InitGpuCalls(b.gpu, gpuCount)
                 + (if b.tileSize == 0 && b.gpu != -1 then [GetHeapBudget(b.gpu)] else [])
    // as written: a located path holding NUL panics after the context is created, with no load
    ensures var paths := ModelPaths(b.directory, b.model, b.scale, b.noise);
            present(b.directory) && present(paths.0) && present(paths.1) && (b.gpu == -1 || b.gpu < gpuCount)
            && InRange(b) && (HasNul(paths.0) || HasNul(paths.1)) ==>
              var calls := InitCalls(b.(modelPaths := paths), heapBudget, ctx);
              r == Err(Panic) && engine.calls == old(engine.calls) + InitGpuCalls(b.gpu, gpuCount) + calls[..|calls| - 1]
    ensures r.Ok? ==> r.value.pointer == ctx && r.value.scale == b.scale && r.value.useCpu == (b.gpu == -1)
                      && !r.value.dropped
  {
    var located, created := CreateModelPaths(b, present);
    if created.Err? {
      return Err(created.error);
    }
    var pointer := Init(located, engine, gpuCount, heapBudget, ctx);
    if pointer.Err? {
      return Err(pointer.error);
    }
    var handle := new RealCugan(pointer.value, located.scale, located.gpu == -1);
    r := Ok(handle);
  }
}

=== FILE: marshal.dfy ===
/**
  Pixel-buffer marshalling: channel normalisation, the native buffer
  descriptors and the byte count copied back out of engine memory.  Images
  are reduced to their dimensions and their bytes per pixel; pixel values
  are not modelled.  Both revisions of the binding carry these helpers with
  the same logic (src/lib.rs:73-108 and src/rs/realcugan.rs:201-236); they
  differ in error texts and in naming the scale field `scale` or
  `scale_factor`, so they are defined once here.
 */
module Marshal {
  import opened Common

  /** A decoded image: width and height as u32, bytes per pixel as u8. */
  datatype Picture = Picture(width: u32, height: u32, bytesPerPixel: u8)

  /** The `#[repr(C)] Image` handed across the boundary: {data, w, h, c}. */
  datatype NativeImage = NativeImage(data: Ptr, w: i32, h: i32, c: i32)

  /**
    `prepare_image`: luminance (1 byte per pixel) is promoted to RGB, luminance
    with alpha (2 bytes) to RGBA; any other layout passes through.  Returns
    the image to send and its channel count.
   */
  function PrepareImage(img: Picture): (r: (Picture, u8))
    ensures r.0.width == img.width && r.0.height == img.height
    ensures r.1 == r.0.bytesPerPixel
    ensures img.bytesPerPixel == 1 ==> r.1 == 3
    ensures img.bytesPerPixel == 2 ==> r.1 == 4
    ensures img.bytesPerPixel !in {1, 2} ==> r.0 == img
  {
    match img.bytesPerPixel
    case 1 => (img.(bytesPerPixel := 3), 3)
    case 2 => (img.(bytesPerPixel := 4), 4)
    case _ => (img, img.bytesPerPixel)
  }

  /** Preparing an already prepared image changes nothing, and what comes out never has 1 or 2 channels. */
  lemma PrepareImageIdempotent(img: Picture)
    ensures PrepareImage(PrepareImage(img).0) == PrepareImage(img)
    ensures PrepareImage(img).1 !in {1, 2}
    ensures img.bytesPerPixel in {1, 2, 3, 4} <==> PrepareImage(img).1 in {3, 4}
  {
  }

  /**
    `create_input_buffer`: a view over the image's own storage; fails when
    the width, then the height, does not fit the engine's i32.
   */
  function CreateInputBuffer(img: Picture, storage: Ptr, channels: u8): (r: Result<NativeImage>)
    ensures r.Ok? <==> img.width <= I32_MAX && img.height <= I32_MAX
    ensures img.width > I32_MAX ==> r == Err(InvalidWidth)
    ensures img.width <= I32_MAX < img.height ==> r == Err(InvalidHeight)
    ensures r.Ok? ==> r.value.data == storage && r.value.w == img.width && r.value.h == img.height
                      && r.value.c == channels
  {
    if img.width > I32_MAX then Err(InvalidWidth)
    else if img.height > I32_MAX then Err(InvalidHeight)
    else Ok(NativeImage(storage, img.width, img.height, channels))
  }

  /**
    `create_output_buffer`: dimensions are the input's times the scale factor
    (i32 multiplication), the data pointer is left null for the engine to fill.
   */
  function CreateOutputBuffer(inBuffer: NativeImage, scaleFactor: i32, channels: u8): (r: NativeImage)
    ensures r.data == NULL && r.c == channels
    ensures I32_MIN <= inBuffer.w * scaleFactor <= I32_MAX ==> r.w == inBuffer.w * scaleFactor
    ensures I32_MIN <= inBuffer.h * scaleFactor <= I32_MAX ==> r.h == inBuffer.h * scaleFactor
  {
    NativeImage(NULL, MulI32(inBuffer.w, scaleFactor), MulI32(inBuffer.h, scaleFactor), channels)
  }

  /** The upscaled buffer is strictly larger than the input in both directions. */
  lemma OutputLargerThanInput(inBuffer: NativeImage, scaleFactor: i32, channels: u8)
    requires inBuffer.w > 0 && inBuffer.h > 0 && scaleFactor >= 2
    requires inBuffer.w * scaleFactor <= I32_MAX && inBuffer.h * scaleFactor <= I32_MAX
    ensures CreateOutputBuffer(inBuffer, scaleFactor, channels).w > inBuffer.w
    ensures CreateOutputBuffer(inBuffer, scaleFactor, channels).h > inBuffer.h
  {
    MulUpTo(inBuffer.w, 2, scaleFactor);
    MulUpTo(inBuffer.h, 2, scaleFactor);
  }

  /**
    `usize::try_from(out.h * out.w * out.c)`: the number of bytes copied out
    of engine memory, computed in i32; a negative (wrapped) product is an error.
   */
  function BufferLength(out: NativeImage): (r: Result<nat>)
    ensures r.Ok? ==> r.value <= I32_MAX
    ensures r.Err? <==> MulI32(MulI32(out.h, out.w), out.c) < 0
    ensures r.Err? ==> r.error == InvalidBufferLength
  {
    var n := MulI32(MulI32(out.h, out.w), out.c);
    if n < 0 then Err(InvalidBufferLength) else Ok(n)
  }

  /** When neither multiplication overflows, the length is exactly h*w*c. */
  lemma BufferLengthExact(out: NativeImage, hw: int)
    requires 0 <= out.h && 0 <= out.w && 0 <= out.c
    requires hw == out.h * out.w && hw <= I32_MAX && hw * out.c <= I32_MAX
    ensures BufferLength(out) == Ok(hw * out.c)
  {
    MulNonNegative(out.h, out.w);
    assert MulI32(out.h, out.w) == hw;
    MulNonNegative(hw, out.c);
    assert MulI32(hw, out.c) == hw * out.c;
  }

  /** A 32768 x 32768 RGB result (a 16384 x 16384 input at 2x) has a byte count that wraps negative. */
  lemma WrappedLengthExample()
    ensures BufferLength(NativeImage(NULL, 32768, 32768, 3)) == Err(InvalidBufferLength)
  {
    assert 32768 * 32768 == 0x4000_0000;
    assert MulI32(0x4000_0000, 3) == 0xC000_0000 - U32_LIMIT;
  }

  /**
    `convert_image`: rebuild an image from `length` copied bytes.  Only 1 to 4
    channels are accepted, and the bytes must cover width x height x channels
    (the `from_raw` rule of the image library); both failures carry the same error.
   */
  function ConvertImage(width: u32, height: u32, channels: u8, length: nat): (r: Result<Picture>)
    ensures r.Ok? <==> channels in {1, 2, 3, 4} && width * height * channels <= length
    ensures r.Err? ==> r.error == InvalidChannels(channels)
    ensures r.Ok? ==> r.value == Picture(width, height, channels)
  {
    if channels in {1, 2, 3, 4} && width * height * channels <= length then
      Ok(Picture(width, height, channels))
    else
      Err(InvalidChannels(channels))
  }

  /** An upscaled image of this size and channel count has dimensions and a byte count that fit in i32. */
  predicate FitsNative(outW: nat, outH: nat, channels: nat)
  {
    outW <= I32_MAX && outH <= I32_MAX && outH * outW * channels <= I32_MAX
  }

  /**
    When nothing overflows, marshalling an image with 1 to 4 bytes per pixel
    at a positive scale yields exactly the input dimensions times the scale,
    with the normalised channel count.
   */
  lemma MarshalledDimensions(img: Picture, storage: Ptr, scaleFactor: i32, outW: nat, outH: nat)
    requires img.bytesPerPixel in {1, 2, 3, 4} && scaleFactor >= 1
    requires outW == img.width * scaleFactor && outH == img.height * scaleFactor
    requires FitsNative(outW, outH, PrepareImage(img).1)
    ensures var (prepared, channels) := PrepareImage(img);
            var input := CreateInputBuffer(prepared, storage, channels);
            && input.Ok?
            && var out := CreateOutputBuffer(input.value, scaleFactor, channels);
            && BufferLength(out) == Ok(outH * outW * channels)
            && ConvertImage(AsU32(out.w), AsU32(out.h), channels, BufferLength(out).value)
               == Ok(Picture(outW, outH, channels))
  {
    var (prepared, channels) := PrepareImage(img);
    MulAtLeast(img.width, scaleFactor);
    MulAtLeast(img.height, scaleFactor);
    var input := CreateInputBuffer(prepared, storage, channels).value;
    UpscaledBuffers(input, scaleFactor, channels, outW, outH);
  }

  /** The output buffer of an input that fits, its byte count, and the image rebuilt from those bytes. */
  lemma UpscaledBuffers(input: NativeImage, scaleFactor: i32, channels: u8, outW: nat, outH: nat)
    requires channels in {1, 2, 3, 4} && scaleFactor >= 1
    requires outW == input.w * scaleFactor && outH == input.h * scaleFactor
    requires FitsNative(outW, outH, channels)
    ensures var out := CreateOutputBuffer(input, scaleFactor, channels);
            && BufferLength(out) == Ok(outH * outW * channels)
            && ConvertImage(AsU32(out.w), AsU32(out.h), channels, BufferLength(out).value)
               == Ok(Picture(outW, outH, channels))
  {
    var out := CreateOutputBuffer(input, scaleFactor, channels);
    assert out.w == outW && out.h == outH && out.c == channels;
    var hw := outH * outW;
    assert 0 <= hw by { MulNonNegative(outH, outW); }
    MulAtLeast(hw, channels);
    BufferLengthExact(out, hw);
    assert AsU32(out.w) == outW && AsU32(out.h) == outH;
    ConvertAcceptsExactLength(outW, outH, channels, hw * channels);
  }

  lemma ConvertAcceptsExactLength(width: u32, height: u32, channels: u8, length: nat)
    requires channels in {1, 2, 3, 4} && length == height * width * channels
    ensures ConvertImage(width, height, channels, length) == Ok(Picture(width, height, channels))
  {
    assert width * height == height * width;
  }

  lemma MulNonNegative(a: nat, b: nat)
    ensures a * b >= 0
  {
  }

  lemma MulAtLeast(a: nat, b: int)
    requires b >= 1
    ensures a <= a * b
  {
  }

  lemma MulUpTo(a: nat, b: nat, c: nat)
    requires b <= c
    ensures a * b <= a * c
  {
  }
}

=== FILE: revisions.dfy ===
/**
  How the two revisions relate: where their parameter heuristics agree and
  where they part.
 */
module Revisions {
  import opened Common
  import Heuristics
  import Legacy

  /** Both revisions pad 2x, 3x and 4x alike; the older one panics where the newer one reports the bad scale. */
  lemma PrepaddingAgrees(b: Legacy.RealCuganBuilder)
    ensures Legacy.GetPrepadding(b).Ok? <==> Heuristics.CalculatePrepadding(b.scale).Ok?
    ensures Legacy.GetPrepadding(b).Ok? ==> Legacy.GetPrepadding(b).value == Heuristics.CalculatePrepadding(b.scale).value
  {
  }

  /**
    Apart from 3x, the two tile-size heuristics agree on every budget that
    fits in i32: the same override rule, the same CPU size, the same 2x and
    4x tables and the same fallback.
   */
  lemma TileSizeAgreesOffScale3(b: Legacy.RealCuganBuilder, heapBudget: u32)
    requires b.scale != 3 && heapBudget <= I32_MAX
    ensures Legacy.GetTileSize(b, heapBudget) == Heuristics.CalculateTileSize(b.tileSize, b.scale, b.gpu, heapBudget)
  {
    if b.tileSize == 0 && b.gpu != -1 && b.scale in {2, 4} {
      var table := Heuristics.Thresholds(b.scale).value;
      assert WrapI32(heapBudget) == heapBudget;
      TableLookup(table, heapBudget);
    }
  }

  /** A table of three or four rows, looked up as the chain of comparisons the older revision writes out. */
  lemma TableLookup(table: seq<(int, int)>, budget: int)
    requires 3 <= |table| <= 4
    ensures Heuristics.FirstExceeded(table, budget).GetOr(32)
            == if budget > table[0].0 then table[0].1
               else if budget > table[1].0 then table[1].1
               else if budget > table[2].0 then table[2].1
               else if |table| == 4 && budget > table[3].0 then table[3].1
               else 32
  {
    var t1 := table[1..];
    var t2 := t1[1..];
    var t3 := t2[1..];
    assert t1[0] == table[1] && t2[0] == table[2];
    assert |t3| == |table| - 3;
    if |table| == 4 {
      assert t3[0] == table[3] && t3[1..] == [];
    }
  }

  /** At 3x a GPU reporting a budget of 2000 gets 400 from the older revision and 300 from the newer one. */
  lemma TileSizeDivergesAtScale3(b: Legacy.RealCuganBuilder)
    requires b.tileSize == 0 && b.gpu != -1 && b.scale == 3
    ensures Legacy.GetTileSize(b, 2000) == 400
    ensures Heuristics.CalculateTileSize(0, 3, b.gpu, 2000) == 300
  {
    assert Heuristics.FirstExceeded(Heuristics.Thresholds(3).value, 2000) == Some(300);
  }

  /** A budget of 2^31 or more is the largest possible to the older revision (unsigned) and negative to the newer one. */
  lemma TileSizeDivergesOnHugeBudget(b: Legacy.RealCuganBuilder, heapBudget: u32)
    requires b.tileSize == 0 && b.gpu != -1 && b.scale in {2, 3, 4} && heapBudget > I32_MAX
    ensures Legacy.GetTileSize(b, heapBudget) == 400
    ensures Heuristics.CalculateTileSize(0, b.scale, b.gpu, heapBudget) == Heuristics.MIN_TILE_SIZE
  {
    Heuristics.HugeBudgetFallsToMinimum(b.scale, b.gpu, heapBudget);
  }
}
